=== FILE: README.md ===
# shier-rpc core in Dafny

This project models the core of shier-rpc, a small Java RPC framework built on Netty,
ZooKeeper, Spring and Hessian. It proves properties of the model.

- A **consumer** calls an interface method through a proxy. `RpcConsumerMethodInterceptor.intercept` turns the call into an `RpcRequestDTO`. It picks one of the service's `RpcNettyClient`s at random, and the client's handler parks the call in a correlation table (`callbackMap`) until a response with the same request id comes back.
- A **provider** (`RpcProviderBean`) builds a registry at start-up. The registry maps `interface_version` service keys to service objects, and `service:name(arity)` keys to methods. Each request is answered with exactly one `RpcResponseDTO`.
- Both sides frame messages with a 4-byte big-endian length. The Hessian encoder writes one, and both channel pipelines add a second one around it.
- **Discovery** (`RpcConfigBean`) stores, for every service, the list of `host:port` provider addresses under `/rpcService_<service>`. Each change notification is reconciled against the consumer's process-wide address→client map and against the interceptor's client list.

Modules, one per concern of the program:

| file | module | models |
|---|---|---|
| `wrappers.dfy` | `Wrappers` | `Option` / `Result` |
| `java_text.dfy` | `JavaText` | Java `int` range, `Integer.toString`, `Integer.parseInt`, `String.split` on one character |
| `dto.dfy` | `Dto` | `RpcRequestDTO`, `RpcResponseDTO`, exceptions, `Method` as name plus parameter types |
| `name_utils.dfy` | `NameUtils` | `NameUtils` |
| `framing.dfy` | `Framing` | `HessianObjectEncoder`, `HessianObjectDecoder`, the outer `LengthFieldPrepender(4)` / `LengthFieldBasedFrameDecoder(max, 0, 4, 0, 4)` |
| `netty_client.dfy` | `NettyClient` | `RpcNettyClient`: correlation table, send guards, `doConnect` address parsing, reconnect state machine |
| `consumer_interceptor.dfy` | `ConsumerInterceptor` | `RpcConsumerMethodInterceptor.intercept` |
| `config_bean.dfy` | `ConfigBean` | `registerProvider`, `cancelProvider`, `registerConsumer`, `RpcZkListener.handleDataChange` |
| `provider_bean.dfy` | `ProviderBean` | registry building in `init`, `registerProvider` / `cancelProvider`, `ProviderServerHandler.invoke` / `returnResponse` / `returnError` |

How the outside world is represented:
- **Serialized messages** are opaque byte sequences.
- **The ZooKeeper store** is a map from path to `Option<seq<string>>`, where `None` is null data.
- **Reflection** becomes data. An interface is `Interface(name, methods)`, and a service object is `ServiceImpl(id, interfaces)`. `Method.invoke` and a client's network send are function parameters.
- **`Math.random()`** is a real number `pick` in [0, 1).
- **A UUID's text** is a parameter.
- **The local host address** is a parameter: the outcome of `InetAddress.getLocalHost().getHostAddress()`, either an address or the exception it throws.
- **`HashMap.keySet()` iteration order** is a parameter `keyOrder`. It is required to list exactly the map's keys.
- **A caller's blocking wait** is abstracted. A send is given the responses that the I/O thread reads while the caller waits, and an optional exception thrown by the write or the wait.

## Model

| member | source | states |
|---|---|---|
| NameUtils.BuildServiceName | src/main/java/shier/rpc/utils/NameUtils.java:12-14 | the service key is exactly as long as the interface name, one separator and the version together, and the separator right after the interface name is `_` |
| NameUtils.ServiceNameLayout | src/main/java/shier/rpc/utils/NameUtils.java:12-14 | the service key reads the interface name, then `_`, then the version |
| NameUtils.BuildMethodName | src/main/java/shier/rpc/utils/NameUtils.java:16-20 | the signature is as long as the method name, two parentheses and the parameter count in decimal together |
| NameUtils.MethodNameLayout | src/main/java/shier/rpc/utils/NameUtils.java:16-20 | the signature reads the method name, `(`, the parameter count in decimal, then `)` |
| NameUtils.BuildServiceMethodName | src/main/java/shier/rpc/utils/NameUtils.java:22-24 | the registry key is as long as the service key, one separator and the signature together, and the separator right after the service key is `:` |
| NameUtils.ServiceMethodNameLayout | src/main/java/shier/rpc/utils/NameUtils.java:22-24 | the registry key reads the service key, `:`, then the signature |
| NameUtils.BuildAddressName | src/main/java/shier/rpc/utils/NameUtils.java:26-28 | the address name reads the host, `:`, then the port in decimal; nothing after the host's `:` is another `:` |
| NameUtils.ServiceNameInjective | src/main/java/shier/rpc/utils/NameUtils.java:12-14 | when versions contain no `_`, the service key `interface_version` determines both interface name and version, and conversely |
| NameUtils.ServiceNameAmbiguous | src/main/java/shier/rpc/utils/NameUtils.java:12-14 | without that restriction two different interface/version pairs share a key (`a_b`+`c` and `a`+`b_c`) |
| NameUtils.MethodNameCharacterization | src/main/java/shier/rpc/utils/NameUtils.java:16-20 | for method names without `(`, two methods get the same signature exactly when they have the same name and the same parameter count, whatever the parameter types |
| NameUtils.OverloadsCollide | src/main/java/shier/rpc/utils/NameUtils.java:16-20 | two overloads with the same name and arity but different parameter types get the same signature |
| NameUtils.MethodNameHasNoColon | src/main/java/shier/rpc/utils/NameUtils.java:16-20 | a signature contains `:` only if the method name does |
| NameUtils.ServiceMethodNameInjective | src/main/java/shier/rpc/utils/NameUtils.java:22-24 | for colon-free method names, the registry key `service:signature` determines the service key and the signature, and conversely |
| NettyClient.ConnectTargetOfAddressName | src/main/java/shier/rpc/netty/RpcNettyClient.java:89-94 | for a host without `:`, `doConnect` splits the address built by `buildAddressName` back into exactly that host and port when the port lies in 0..65535; any other Java int port makes the connect call throw IllegalArgumentException "port out of range:`<port>`" |
| NettyClient.ConnectTarget | src/main/java/shier/rpc/netty/RpcNettyClient.java:89-94 | `doConnect`'s parsing and connect call: no element 1 gives ArrayIndexOutOfBoundsException, a malformed port gives NumberFormatException, a port outside 0..65535 gives IllegalArgumentException; a successful parse yields a colon-free host and a TCP port |
| NettyClient.ColonHostMisparsed | src/main/java/shier/rpc/netty/RpcNettyClient.java:91-92 | a host that contains `:` never comes back from its own address name as that host and port |
| NettyClient.CompressedHostSplit | src/main/java/shier/rpc/netty/RpcNettyClient.java:91 | for colon-free `a`, `b` and a non-empty colon-free `d`, splitting `a::b:d` at `:` gives `a`, an empty piece, `b` and `d` |
| NettyClient.Ipv6HostRefused | src/main/java/shier/rpc/netty/RpcNettyClient.java:91-92 | the compressed IPv6 host `fe80::1` with port 8090 gets NumberFormatException, since its second piece is empty |
| Framing.ReadBigEndian32 | src/main/java/shier/rpc/netty/HessianObjectEncoder.java:41 | the four bytes `setInt` writes, read back as an unsigned big-endian int at the same index, give the value written |
| Framing.SetIntOverPlaceholder | src/main/java/shier/rpc/netty/HessianObjectEncoder.java:41 | patching the zero placeholder with the payload size yields the old bytes, then the 4-byte big-endian size, then the payload |
| Framing.HessianEncode | src/main/java/shier/rpc/netty/HessianObjectEncoder.java:21-42 | encoding fails with IndexOutOfBoundsException exactly when the buffer would grow past `Integer.MAX_VALUE`; otherwise it yields the old bytes, then a 4-byte big-endian payload length, then the payload |
| Framing.HessianEncodeLayout | src/main/java/shier/rpc/netty/HessianObjectEncoder.java:22-41 | the frame is only appended: the buffer grows by 4 + size, bytes before `startIdx` are unchanged, the prefix reads back as the payload size (not counting its own 4 bytes), and the payload follows it |
| Framing.LengthFieldDecode | src/main/java/shier/rpc/netty/HessianObjectDecoder.java:17-23 | the length-field frame decoder with the configured offset, adjustment, strip and maximum: a frame and the bytes left after it rebuild the input behind the stripped header, a frame never exceeds the maximum, and "too long" is only reported once the length field is readable |
| Framing.HessianDecode | src/main/java/shier/rpc/netty/HessianObjectDecoder.java:17-27 | fewer than 4 bytes, or fewer than 4 + N for a declared length N, yields "need more" with nothing consumed; 4 + N beyond `Integer.MAX_VALUE` is refused as too long; otherwise exactly the N bytes after the prefix are the frame, and the rest stays; it never reports a corrupted frame |
| Framing.HessianAllOnesTooLong | src/main/java/shier/rpc/netty/HessianObjectDecoder.java:17-23 | a prefix of four 0xFF bytes is refused as too long, whatever follows |
| Framing.HessianRoundTrip | src/main/java/shier/rpc/netty/HessianObjectDecoder.java:22-31 | decoding an encoded payload followed by any bytes returns the payload and leaves the following bytes |
| Framing.HessianIncomplete | src/main/java/shier/rpc/netty/HessianObjectDecoder.java:23-26 | every strict prefix of an encoded payload decodes to "need more" |
| Framing.DecodeAllEncodeAll | src/main/java/shier/rpc/netty/HessianObjectDecoder.java:22-31 | a stream of encoded payloads followed by an incomplete frame decodes to exactly those payloads, in order, with the incomplete frame kept back |
| Framing.PipelineEncode | src/main/java/shier/rpc/netty/RpcNettyClient.java:72-73 | the outbound pipeline succeeds exactly when the inner encoder does, and yields an outer length (4 + size), an inner length (size), then the payload |
| Framing.Prepend | src/main/java/shier/rpc/netty/RpcNettyClient.java:72 | the outer prefix reads back as the message length, and the message follows it unchanged |
| Framing.PipelineDecode | src/main/java/shier/rpc/netty/RpcNettyClient.java:71-74 | a delivered payload is the inner frame of the outer frame: both declared lengths fit the bytes present, the payload and the inner leftover make up the outer frame, and the bytes after the outer frame are left |
| Framing.PipelineRoundTrip | src/main/java/shier/rpc/netty/RpcNettyClient.java:71-74 | when 8 + size fits in `Integer.MAX_VALUE`, the two-layer decode of the two-layer encoding, followed by any bytes, delivers the payload with nothing left in the inner frame and the following bytes untouched |
| Framing.PipelineIncomplete | src/main/java/shier/rpc/spring/RpcProviderBean.java:107-110 | when 8 + size fits in `Integer.MAX_VALUE`, every strict prefix of a two-layer encoding is held back by the outer frame decoder |
| Framing.OuterIncomplete | src/main/java/shier/rpc/netty/RpcNettyClient.java:71 | the outer frame decoder alone answers "need more" for every strict prefix of a two-layer encoding |
| Framing.PipelineNearMaxTooLong | src/main/java/shier/rpc/netty/RpcNettyClient.java:71-74 | a payload whose inner encoding fits but whose outer frame would pass `Integer.MAX_VALUE` is sent and then refused as too long by the receiving pipeline |
| NettyClient.ChannelRead | src/main/java/shier/rpc/netty/RpcNettyClient.java:140-148 | a response whose id is registered removes exactly that entry and delivers its `result`; an unregistered id delivers nothing and changes nothing; other entries are untouched |
| NettyClient.ChannelReadIgnoresErrorFields | src/main/java/shier/rpc/netty/RpcNettyClient.java:141-146 | two responses that agree on id and result are handled identically, whatever their `hasError` and `throwable` |
| NettyClient.DuplicateResponseIsNoOp | src/main/java/shier/rpc/netty/RpcNettyClient.java:142-143 | a second response for an id that was just resolved delivers nothing and leaves the table as it is |
| NettyClient.ReadAll | src/main/java/shier/rpc/netty/RpcNettyClient.java:140-148 | reading responses only removes table entries, keeps every other entry's callback, and delivers only to ids that were registered and are no longer |
| NettyClient.ReadAllResolves | src/main/java/shier/rpc/netty/RpcNettyClient.java:140-148 | over any sequence of responses, a registered id leaves the table exactly when some response carries it, and its caller receives the first such response's result |
| NettyClient.NeverResolvedAgain | src/main/java/shier/rpc/netty/RpcNettyClient.java:142-145 | an id not in the table is never delivered to and never re-enters it, whatever arrives later |
| NettyClient.ReadAllDistinct | src/main/java/shier/rpc/netty/RpcNettyClient.java:140-148 | with many calls outstanding, responses for distinct registered ids, in any order, each reach their own caller with their own result |
| NettyClient.ReadAllDistinctClears | src/main/java/shier/rpc/netty/RpcNettyClient.java:140-148 | after such responses the table holds exactly the registered ids that were not answered |
| NettyClient.HandlerSend | src/main/java/shier/rpc/netty/RpcNettyClient.java:156-170 | no channel gives NullPointerException and an inactive channel gives RpcConnectException, both with the table unchanged; on an active channel a faulting write or wait re-raises its exception with the request's entry removed; otherwise the caller gets the first answering response's result, or null with the entry left in the table when none arrived |
| NettyClient.HandlerSendKeepsOthers | src/main/java/shier/rpc/netty/RpcNettyClient.java:161-166 | another call's entry survives a send exactly when no inbound response carries its id, and it keeps its callback |
| NettyClient.SendRpcRequest | src/main/java/shier/rpc/netty/RpcNettyClient.java:50-58 | a connect future that has not succeeded gives RpcConnectException, and a missing handler gives NullPointerException, both leaving the client unchanged; a result is only returned over an active channel |
| NettyClient.NewClient | src/main/java/shier/rpc/netty/RpcNettyClient.java:60-94 | creating a client succeeds exactly when its address parses to a host and a TCP port, fails with the parse's own exception otherwise, and yields a live client for that address in a consistent connection state |
| NettyClient.NewClientOfAddressName | src/main/java/shier/rpc/netty/RpcNettyClient.java:60-94 | for a colon-free host, a client for a registered address name is created exactly when the port lies in 0..65535, and otherwise creation throws IllegalArgumentException "port out of range:`<port>`" |
| NettyClient.DoConnect | src/main/java/shier/rpc/netty/RpcNettyClient.java:68-94 | a connect attempt installs a new handler with no channel yet and an empty table, and leaves the client consistent and not connected; address and shutdown state are kept |
| NettyClient.Step | src/main/java/shier/rpc/netty/RpcNettyClient.java:128-193 | a connection event keeps the client's address, changes nothing once the client is shut down, and keeps a consistent state consistent |
| NettyClient.Run | src/main/java/shier/rpc/netty/RpcNettyClient.java:128-193 | the same holds for any sequence of events |
| NettyClient.Closed | src/main/java/shier/rpc/netty/RpcNettyClient.java:99-102 | shutting the event loop leaves no active channel and keeps the handler's table |
| NettyClient.DisconnectedClientRefuses | src/main/java/shier/rpc/netty/RpcNettyClient.java:99-102 | after `disConnect`, whatever events follow, a send throws RpcConnectException and leaves the client unchanged |
| NettyClient.StepPreservesValid | src/main/java/shier/rpc/netty/RpcNettyClient.java:180-193 | every connection event keeps a client's state consistent: a failed connect always has a 1-second retry scheduled, and a succeeded one has an active channel until the client is shut down |
| NettyClient.FailureSchedulesRetry | src/main/java/shier/rpc/netty/RpcNettyClient.java:182-192 | a failed connect schedules a retry after 1000 ms, and the retry starts a new connect attempt |
| NettyClient.NoTerminalFailure | src/main/java/shier/rpc/netty/RpcNettyClient.java:134-137 | from any consistent state of a live client, some sequence of events ends connected: there is no terminal failed state |
| NettyClient.InactiveChannelDropsTable | src/main/java/shier/rpc/netty/RpcNettyClient.java:70-76 | losing the channel triggers a new connect whose channel gets a new handler with an empty correlation table |
| ConsumerInterceptor.BuildRequest | src/main/java/shier/rpc/spring/RpcConsumerMethodInterceptor.java:41-45 | the request id is the 16-character prefix of the UUID text, and the request carries the interceptor's service key, the method's signature and the arguments unchanged |
| ConsumerInterceptor.ChooseIndex | src/main/java/shier/rpc/spring/RpcConsumerMethodInterceptor.java:52-54 | the chosen index lies in [0, size) and is the integer part of `pick * size` |
| ConsumerInterceptor.ChooseIndexUniform | src/main/java/shier/rpc/spring/RpcConsumerMethodInterceptor.java:52-54 | index k is chosen exactly for picks in [k/size, (k+1)/size), a slice of equal width for every index |
| ConsumerInterceptor.Intercept | src/main/java/shier/rpc/spring/RpcConsumerMethodInterceptor.java:39-64 | an empty client list throws ProviderNotFindException "`<service>` have no provider !" and sends nothing; otherwise exactly one client from the list is used, the one at index `ChooseIndex(pick, size)` (so each client gets an equal slice of picks, `ChooseIndexUniform`), and its result or exception is handed back unchanged |
| ConsumerInterceptor.EveryClientReachable | src/main/java/shier/rpc/spring/RpcConsumerMethodInterceptor.java:52-55 | every client of a non-empty list is chosen for some pick |
| ConfigBean.ServicePathInjective | src/main/java/shier/rpc/spring/RpcConfigBean.java:102 | different services are stored at different paths |
| ConfigBean.RegisterProvider | src/main/java/shier/rpc/spring/RpcConfigBean.java:101-115 | null data at an existing path throws; a missing path is created holding `[address]`; an already listed address leaves the store unchanged; otherwise the address is appended at the end; no other path changes |
| ConfigBean.RegisterProviderIdempotent | src/main/java/shier/rpc/spring/RpcConfigBean.java:103-108 | registering the same address twice is the same as registering it once |
| ConfigBean.RemoveFirst | src/main/java/shier/rpc/spring/RpcConfigBean.java:126 | `List.remove(Object)` drops one occurrence: the result's multiset is the old one minus the address, and an absent address leaves the list unchanged |
| ConfigBean.RemoveFirstKeepsOrder | src/main/java/shier/rpc/spring/RpcConfigBean.java:126 | the occurrence removed is the first one, and every other entry keeps its order |
| ConfigBean.CancelProvider | src/main/java/shier/rpc/spring/RpcConfigBean.java:123-129 | a missing path throws ZkNoNodeException and null data throws NullPointerException; otherwise the path's list is rewritten and no other path changes |
| ConfigBean.CancelProviderRemovesOne | src/main/java/shier/rpc/spring/RpcConfigBean.java:125-127 | the rewritten list loses exactly one occurrence of the address, and a store that does not list the address is left as it was |
| ConfigBean.CancelUndoesRegister | src/main/java/shier/rpc/spring/RpcConfigBean.java:101-129 | cancelling a fresh registration restores the list; if the registration created the path, the path is left holding an empty list |
| ConfigBean.GetOrCreate | src/main/java/shier/rpc/spring/RpcConfigBean.java:82-87 | a pooled address reuses its client and changes nothing; a new one gets a freshly allocated client filed under it; the pool stays consistent |
| ConfigBean.NewClientIsFresh | src/main/java/shier/rpc/spring/RpcConfigBean.java:83-86 | a newly created client differs from every client already pooled |
| ConfigBean.AttachAll | src/main/java/shier/rpc/spring/RpcConfigBean.java:81-89 | the interceptor's list keeps its old entries in front and grows by exactly one client per listed address |
| ConfigBean.AttachAllSpec | src/main/java/shier/rpc/spring/RpcConfigBean.java:81-89 | attaching a list of addresses pools exactly the old addresses plus the listed ones, keeps every old client, and appends for each address, in order, the one client pooled for it |
| ConfigBean.RegisterConsumer | src/main/java/shier/rpc/spring/RpcConfigBean.java:72-93 | a missing path is created with an empty list and an existing store is not written; the listener starts from the list read; the interceptor's list grows by one client per listed address, after its old entries |
| ConfigBean.RegisterConsumerSharesClients | src/main/java/shier/rpc/spring/RpcConfigBean.java:80-89 | registration reuses pooled clients and creates at most one client per address; the interceptor receives, for each listed address, the client pooled for it |
| ConfigBean.DropAddress | src/main/java/shier/rpc/spring/RpcConfigBean.java:230-231 | the filtered list holds exactly the clients of other addresses |
| ConfigBean.DropAddressCounts | src/main/java/shier/rpc/spring/RpcConfigBean.java:230-231 | every client of the address is removed, and every other client keeps its number of occurrences |
| ConfigBean.KeepLive | src/main/java/shier/rpc/spring/RpcConfigBean.java:224-227 | the surviving addresses are exactly those both listed and notified |
| ConfigBean.NewAddresses | src/main/java/shier/rpc/spring/RpcConfigBean.java:240-242 | the appended addresses are exactly the notified ones not already listed |
| ConfigBean.NewAddressesDistinct | src/main/java/shier/rpc/spring/RpcConfigBean.java:240-242 | the appended addresses contain no duplicates, even when the notification repeats an address |
| ConfigBean.Prune | src/main/java/shier/rpc/spring/RpcConfigBean.java:224-238 | every surviving address was listed and notified; the client map only loses keys and allocates no client |
| ConfigBean.PruneClientCounts | src/main/java/shier/rpc/spring/RpcConfigBean.java:224-238 | the first loop removes every client of a dropped address and keeps every other client with its number of occurrences |
| ConfigBean.PruneSpec | src/main/java/shier/rpc/spring/RpcConfigBean.java:224-238 | the first loop keeps the notified addresses in their order, unpools exactly the dropped ones, removes exactly their clients from the interceptor's list, and disconnects only clients pooled for dropped addresses |
| ConfigBean.PruneAllLive | src/main/java/shier/rpc/spring/RpcConfigBean.java:224-238 | when every listed address is notified, the first loop changes nothing and disconnects nothing |
| ConfigBean.Extend | src/main/java/shier/rpc/spring/RpcConfigBean.java:240-251 | every address in the extended list was listed or notified, and the client map only gains keys |
| ConfigBean.ExtendSpec | src/main/java/shier/rpc/spring/RpcConfigBean.java:240-251 | the second loop appends the new addresses in notification order, pools exactly those in addition to the old ones, keeps old clients, and appends for each new address the client pooled for it |
| ConfigBean.ExtendAddsLive | src/main/java/shier/rpc/spring/RpcConfigBean.java:240-251 | every client in the extended list was there before or serves a notified address |
| ConfigBean.ExtendNothingNew | src/main/java/shier/rpc/spring/RpcConfigBean.java:240-251 | when every notified address is already listed, the second loop changes nothing |
| ConfigBean.HandleDataChange | src/main/java/shier/rpc/spring/RpcConfigBean.java:211-252 | every address kept after a notification is in the notified list, a null notification counting as empty |
| ConfigBean.HandleDataChangeList | src/main/java/shier/rpc/spring/RpcConfigBean.java:211-252 | afterwards the address list is the survivors, in their order, followed by the new addresses in notification order without duplicates; as a set it equals the notification; the pool stays consistent |
| ConfigBean.HandleDataChangeDrops | src/main/java/shier/rpc/spring/RpcConfigBean.java:226-232 | a dropped address is no longer a key of the client map, and no client in the interceptor's list serves it |
| ConfigBean.HandleDataChangeDisconnects | src/main/java/shier/rpc/spring/RpcConfigBean.java:228-235 | only clients pooled for a dropped address are disconnected |
| ConfigBean.HandleDataChangeKeepsLive | src/main/java/shier/rpc/spring/RpcConfigBean.java:224-251 | clients of still-notified addresses stay in the interceptor's list, and every new address's pooled client is added to it |
| ConfigBean.HandleDataChangeIdempotent | src/main/java/shier/rpc/spring/RpcConfigBean.java:224-251 | applying the same notification again removes nothing, adds nothing and disconnects nothing |
| ConfigBean.NullNotificationDropsAll | src/main/java/shier/rpc/spring/RpcConfigBean.java:216-222 | a null notification is handled exactly like an empty list: every address and every client of a listed address is dropped |
| ConfigBean.SharedClientDisconnectedForAll | src/main/java/shier/rpc/spring/RpcConfigBean.java:228-234 | two services listing the same address share one client, and a notification dropping the address for one service disconnects that client while the other service still holds it |
| ProviderBean.Apply | src/main/java/shier/rpc/spring/RpcProviderBean.java:77-91 | a failure is a plain Exception with a message |
| ProviderBean.Init | src/main/java/shier/rpc/spring/RpcProviderBean.java:77-91 | a failed `init` throws a plain Exception with a message |
| ProviderBean.ApplySucceeds | src/main/java/shier/rpc/spring/RpcProviderBean.java:77-91 | the bindings are applied without an exception exactly when their method keys are pairwise distinct and not already bound |
| ProviderBean.ApplyBindsMethods | src/main/java/shier/rpc/spring/RpcProviderBean.java:82-88 | after a successful run every method binding's key maps to its method, earlier keys are kept, and no other key appears |
| ProviderBean.ApplyBindsServices | src/main/java/shier/rpc/spring/RpcProviderBean.java:80-81 | every service binding's key is present, and every service entry comes from some binding or was there before |
| ProviderBean.ApplyKeepsMethods | src/main/java/shier/rpc/spring/RpcProviderBean.java:82-88 | after a successful run every earlier method key is still bound as before, and every new key is one of the bindings' keys |
| ProviderBean.ApplyPutsMethods | src/main/java/shier/rpc/spring/RpcProviderBean.java:82-88 | after a successful run every method binding's key maps to that binding's method |
| ProviderBean.ApplyFailureMessage | src/main/java/shier/rpc/spring/RpcProviderBean.java:85-87 | a failure is a plain Exception reading "`<service>` have repeat method `<signature>`" for one of the method bindings |
| ProviderBean.StepsCover | src/main/java/shier/rpc/spring/RpcProviderBean.java:77-89 | every interface of every exposed service contributes its service binding and all its method bindings |
| ProviderBean.StepsOrigin | src/main/java/shier/rpc/spring/RpcProviderBean.java:77-81 | every service binding names an exposed service under the key of one of its interfaces |
| ProviderBean.InitSucceeds | src/main/java/shier/rpc/spring/RpcProviderBean.java:77-91 | `init` completes exactly when all registry keys it produces are distinct |
| ProviderBean.InitFailureMessage | src/main/java/shier/rpc/spring/RpcProviderBean.java:85-87 | a failed `init` throws a plain Exception with the "have repeat method" message |
| ProviderBean.InitBindsMethod | src/main/java/shier/rpc/spring/RpcProviderBean.java:80-88 | after `init`, every method of every exposed interface is reachable under `buildServiceMethodName(buildServiceName(interface, version), buildMethodName(m))`, and its service key is registered |
| ProviderBean.InitServiceOrigin | src/main/java/shier/rpc/spring/RpcProviderBean.java:77-81 | every registered service is an exposed service object, filed under the key of one of its interfaces |
| ProviderBean.InitBindsService | src/main/java/shier/rpc/spring/RpcProviderBean.java:79-81 | an interface implemented by exactly one exposed service is keyed as `buildServiceName(interface, version)` and maps to that service |
| ProviderBean.InitRejectsOverloads | src/main/java/shier/rpc/spring/RpcProviderBean.java:82-87 | an interface with two overloads of the same name and arity makes `init` fail |
| ProviderBean.InitRejectsSharedInterface | src/main/java/shier/rpc/spring/RpcProviderBean.java:77-87 | two exposed services implementing the same interface (with at least one method) make `init` fail |
| ProviderBean.ReturnResponse | src/main/java/shier/rpc/spring/RpcProviderBean.java:222-227 | a success response carries the request id and the result, with the error flag clear and no exception |
| ProviderBean.ReturnError | src/main/java/shier/rpc/spring/RpcProviderBean.java:229-235 | an error response carries the request id, the error flag and the exception, and no result |
| ProviderBean.Invoke | src/main/java/shier/rpc/spring/RpcProviderBean.java:198-220 | each request is answered by exactly one response carrying its id: an unknown service gives an error "`<service>` can't find provider " without a method lookup; an unknown method gives an error "`<service>` can't find method `<signature>`"; a call that returns gives a success response carrying the returned value, and a call that throws gives an error response carrying the exception `Method.invoke` threw; the error flag is set exactly when an exception is carried |
| ProviderBean.ConsumerRequestReachesMethod | src/main/java/shier/rpc/spring/RpcProviderBean.java:206-214 | a request built by a consumer for a method of an exposed interface reaches that method on that service, and the answer carries `Method.invoke`'s return value or exception; an exception the method itself throws arrives wrapped in InvocationTargetException |
| ProviderBean.ProviderOutcomeAtConsumer | src/main/java/shier/rpc/spring/RpcProviderBean.java:222-235 | at the consumer, a success response returns its result, and an error response (`hasError`, `throwable`) returns null, not an exception |
| ProviderBean.EffectiveAddress | src/main/java/shier/rpc/spring/RpcProviderBean.java:64-66 | a null or empty configured address is replaced by the local-host lookup's outcome, including its exception; any other address is kept and the lookup is not consulted |
| ProviderBean.Start | src/main/java/shier/rpc/spring/RpcProviderBean.java:62-94 | start-up succeeds exactly when the address defaulting and the binding loops both do; a failed local-host lookup (UnknownHostException) aborts it with that exception before any binding, and with a configured address only the loops decide; the provider keeps the effective address, the port and the registry built |
| ProviderBean.RegisterAll | src/main/java/shier/rpc/spring/RpcProviderBean.java:137-142 | a success leaves the old paths plus the path of every service key; a failure is the NullPointerException of a null list |
| ProviderBean.CancelAll | src/main/java/shier/rpc/spring/RpcProviderBean.java:144-149 | a success keeps the set of paths and shows that every service key's path existed; a failure is ZkNoNodeException or NullPointerException |
| ProviderBean.RegisterAllSucceeds | src/main/java/shier/rpc/spring/RpcProviderBean.java:137-142 | registering every service key completes exactly when no path involved holds null data |
| ProviderBean.RegisterAllResult | src/main/java/shier/rpc/spring/RpcProviderBean.java:137-142 | afterwards every service's path lists the address once as a single registration would, and all other paths are unchanged |
| ProviderBean.CancelAllSucceeds | src/main/java/shier/rpc/spring/RpcProviderBean.java:144-149 | for distinct keys, cancelling completes exactly when every path involved exists with non-null data |
| ProviderBean.CancelAllResult | src/main/java/shier/rpc/spring/RpcProviderBean.java:144-149 | afterwards every service's path has lost the first occurrence of the address, and all other paths are unchanged |
| ProviderBean.RegisterThenCancel | src/main/java/shier/rpc/spring/RpcProviderBean.java:137-149 | registering then cancelling an address not yet listed succeeds and restores every list, leaving empty lists at paths the registration created |
| ProviderBean.RegisterProvider | src/main/java/shier/rpc/spring/RpcProviderBean.java:137-142 | a provider's registration adds exactly the paths of its service keys, or fails with the NullPointerException of a null list |
| ProviderBean.CancelProvider | src/main/java/shier/rpc/spring/RpcProviderBean.java:144-149 | a provider's cancellation keeps the set of paths, needs every service key's path to exist, and otherwise fails with ZkNoNodeException or NullPointerException |
| ProviderBean.ProviderListed | src/main/java/shier/rpc/spring/RpcProviderBean.java:137-142 | after registration every registered service's path lists the provider's `host:port` |
| ProviderBean.ProviderRegistered | src/main/java/shier/rpc/spring/RpcProviderBean.java:137-142 | after registration every registered service's path lists `host:port`; for a host without `:`, a consumer's `doConnect` parses that name back to the provider's host and port when the port lies in 0..65535, and throws IllegalArgumentException "port out of range:`<port>`" otherwise |
| ProviderBean.ProviderRegisterThenCancel | src/main/java/shier/rpc/spring/RpcProviderBean.java:137-149 | a provider's `destroy` undoes its start-up registration, using the same `host:port` name for every service key |

## Left out

- Hessian 2 serialization is not modelled; messages are opaque byte sequences.
- Netty I/O is not modelled: bootstraps, event loops, channel writes, ByteBuf reference counting (the decoder's `in.release()`), `exceptionCaught` and `ctx.close()`.
- ZooKeeper I/O is not modelled: `exists`, `readData`, `writeData`, `create` and `subscribeDataChanges` become reads and writes of a map. A notification is an input of `HandleDataChange`.
- The `RpcCallback` lock and condition wait is not modelled. It waits a fixed 5 seconds. `RpcNettyClient.java:161` calls a two-argument constructor that `RpcCallback` does not declare, so the caller's timeout is not visibly honoured. The wait is modelled as "the responses read meanwhile, or a fault".
- The provider's thread pool is not modelled. This includes the keep-alive and max-size setters, which are passed each other's values.
- The `synchronized` block and the race between the interceptor's list snapshot and a concurrent update are left out. They are concurrency, not functional behaviour.
- `Math.random()` is a real number in [0, 1). Floating-point rounding is not modelled.
- Reflection (`getInterfaces`, `getMethods`, `Method.invoke`) becomes data plus a call parameter. The parameter stands for `Method.invoke` itself, so its exception is the InvocationTargetException that wraps whatever the method throws, and that wrapper is what `returnError` sends (RpcProviderBean.java:213-217).
- `RpcConsumerFactoryBean` (proxy construction) is not part of this model.
- Monitoring and reporting are not part of this model: `Monitor`, `ReportHandler`, `postJson`, `registerCenter`, `cancelCenter`, `getCenterAddress`.
- NameUtils.BuildAddressName: requires a Java int port. `port` is a boxed `Integer` with a public setter (RpcProviderBean.java:45, 159-161). A null port would build `"host:null"`, which `run()` registers with the naming service before `b.bind(port)` fails on unboxing (RpcProviderBean.java:117-118). That case is not modelled.
- Framing.LengthFieldDecode: after a too-long frame, Netty's decoder enters a discard mode that skips the announced bytes across later reads. The model stops at the "too long" result and does not model that discarding.
- `registerConsumer` and `handleDataChange` create clients through `new RpcNettyClient(address).init()`. The consumer-side model creates such a client without parsing its address. `NettyClient.NewClient` models the parsing separately.
  - In Java, `init()` throws for every address that `NettyClient.ConnectTarget` refuses (RpcNettyClient.java:91-92): ArrayIndexOutOfBoundsException when there is no `:`, NumberFormatException for a malformed port or an IPv6 host (`NettyClient.Ipv6HostRefused`), and IllegalArgumentException for a port outside 0..65535.
  - In `handleDataChange` (RpcConfigBean.java:241-247) the address has already been appended to the listener's list when `init()` throws. It then stays listed with no client and is never retried, and the rest of the notification is skipped.
  - In `registerConsumer` (RpcConfigBean.java:84-92) the throw comes before `subscribeDataChanges`, so no listener is ever registered.
  - The model instead gives every such address a client, so the contracts below hold only when every address involved parses.
- ConfigBean.AttachAllSpec: holds only when every listed address parses. Otherwise Java stops at the first unparseable address.
- ConfigBean.RegisterConsumer: holds only when every listed address parses. Otherwise Java registers no listener and attaches only the clients before the first unparseable address.
- ConfigBean.RegisterConsumerSharesClients: holds only when every listed address parses, for the same reason.
- ConfigBean.ExtendSpec: holds only when every new address parses. Otherwise Java lists the first unparseable new address without a client and skips the rest of the notification.
- ConfigBean.HandleDataChangeList: "as a set it equals the notification" holds only when every new address parses, for the same reason.
- ConfigBean.HandleDataChangeKeepsLive: "every new address's pooled client is added" holds only when every new address parses, for the same reason.
- `ProviderBean.RegisterProvider` and `ProviderBean.CancelProvider` take the `serviceMap.keySet()` iteration order as a parameter that must list exactly the map's keys. Java's `HashMap` order is not modelled.
- ProviderBean.InitBindsService: requires that exactly one exposed service implements the interface. Otherwise the later service object overwrites the earlier one, and `init` then fails anyway whenever the interface has methods (`ProviderBean.InitRejectsSharedInterface`).
- NettyClient.ConnectTarget: its contract states only the error cases and the port range. The exact host and port are stated for the addresses providers register, in `NettyClient.ConnectTargetOfAddressName`. The port is parsed from ASCII digits only. Java's `Integer.parseInt` also accepts any other Unicode decimal digit (through `Character.digit`), so such a port is a NumberFormatException here but a number in Java.
- ProviderBean.ProviderRegistered: the round trip to the provider's host is stated only for hosts without `:`. An IPv6 host breaks it: `NettyClient.ColonHostMisparsed` shows no such host comes back as itself, and `NettyClient.Ipv6HostRefused` shows `fe80::1` throws NumberFormatException.
- NettyClient.Step: each connection event is one atomic step. Java has two windows the model leaves out.
  - Netty completes the connect future before `channelActive` sets the handler's channel. A send in between passes the future check (RpcNettyClient.java:51) and throws NullPointerException at `this.channel.isActive()` (RpcNettyClient.java:157).
  - The channel can be inactive while the future still reports success, before `channelInactive`'s `doConnect` (RpcNettyClient.java:134-137) replaces it. A send then throws RpcConnectException "is unable to connect".
  - `NettyClient.HandlerSend` models both outcomes for a handler without a channel and for one with an inactive channel.
- NettyClient.StepPreservesValid: "a succeeded connect has an active channel until the client is shut down" holds under that atomic-step abstraction only. The two windows above are exactly the states it excludes.
- NettyClient.Step: once the client is shut down, later events leave it as it is. In Java, the channel closing still calls `doConnect` on the stopped event loop; that failed connect attempt is not modelled. A send after `disConnect` throws RpcConnectException either way.
- ConfigBean.DropAddress: the number of occurrences of each kept client is stated in `ConfigBean.DropAddressCounts`, not in the function's own contract.
- NameUtils.BuildServiceName: its own contract states the length and the separator only. The character layout is stated in `NameUtils.ServiceNameLayout`.
- NameUtils.BuildMethodName: its own contract states the length only. The character layout is stated in `NameUtils.MethodNameLayout`.
- NameUtils.BuildServiceMethodName: its own contract states the length and the separator only. The character layout is stated in `NameUtils.ServiceMethodNameLayout`.
- Behaviour of the code worth noting:
  - A call whose response never arrives returns null after the wait, not a timeout error. Its table entry is not removed (`NettyClient.HandlerSend`).
  - `channelRead` hands only `result` to the caller. A provider-side error response therefore reaches the consumer as a null result, not an exception (`ProviderBean.ProviderOutcomeAtConsumer`).
  - Outstanding calls are not failed when the channel drops. The reconnect installs a new handler with an empty table (`NettyClient.InactiveChannelDropsTable`).

=== FILE: config_bean.dfy ===
/**
 * `RpcConfigBean`: the discovery side. Provider addresses are stored per service as a list at
 * a registry path; consumers keep one client per address in a process-wide map, hand them to
 * each service's interceptor, and reconcile both with every change notification.
 * The registry (ZooKeeper) is a map from path to stored list, `None` standing for null data.
 */
module ConfigBean {
  import opened Wrappers
  import opened Dto
  import opened ConsumerInterceptor

  const ZK_PATH: string := "/rpcService_"

  function ServicePath(serviceName: string): string {
    ZK_PATH + serviceName
  }

  /** Different services are stored at different paths. */
  lemma ServicePathInjective(s1: string, s2: string)
    requires ServicePath(s1) == ServicePath(s2)
    ensures s1 == s2
  {
    assert s1 == ServicePath(s1)[|ZK_PATH|..];
    assert s2 == ServicePath(s2)[|ZK_PATH|..];
  }

  type ZkStore = map<string, Option<seq<string>>>

  // ---------------------------------------------------------------------------------------
  // Provider registration
  // ---------------------------------------------------------------------------------------

  /** `List.indexOf`: the position of the first occurrence. */
  function FirstIndex(s: seq<string>, x: string): (k: nat)
    requires x in s
    ensures k < |s| && s[k] == x && x !in s[..k]
  {
    if s[0] == x then 0
    else
      var k := FirstIndex(s[1..], x);
      assert s[..k + 1] == [s[0]] + s[1..][..k];
      k + 1
  }

  /** `List.remove(Object)`: drop the first occurrence, if there is one. */
  function RemoveFirst(s: seq<string>, x: string): (r: seq<string>)
    ensures x !in s ==> r == s
    ensures multiset(r) == multiset(s) - multiset{x}
  {
    if x in s then
      var i := FirstIndex(s, x);
      assert s == s[..i] + [x] + s[i + 1..];
      s[..i] + s[i + 1..]
    else s
  }

  /** The first occurrence is the one removed: everything before it and after it stays in order. */
  lemma RemoveFirstKeepsOrder(s: seq<string>, x: string, i: nat)
    requires i < |s| && s[i] == x && x !in s[..i]
    ensures RemoveFirst(s, x) == s[..i] + s[i + 1..]
  {
    FirstIndexIs(s, x, i);
  }

  lemma {:induction false} FirstIndexIs(s: seq<string>, x: string, i: nat)
    requires i < |s| && s[i] == x && x !in s[..i]
    ensures FirstIndex(s, x) == i
    decreases i
  {
    if i > 0 {
      assert s[0] == s[..i][0];
      assert s[1..][..i - 1] == s[..i][1..];
      FirstIndexIs(s[1..], x, i - 1);
    }
  }

  /**
   * `registerProvider`: on an existing path add the address at the end unless it is already
   * listed; on a missing path create the list `[address]`. Null data at an existing path makes
   * `contains` throw NullPointerException.
   */
  function RegisterProvider(store: ZkStore, serviceName: string, address: string): (r: Result<ZkStore, Exception>)
    ensures var path := ServicePath(serviceName);
            r.Failure? <==> path in store && store[path].None?
    ensures r.Success? ==>
              var path := ServicePath(serviceName);
              && r.value.Keys == store.Keys + {path}
              && (forall p :: p in store && p != path ==> r.value[p] == store[p])
              && r.value[path].Some? && address in r.value[path].value
              && (path !in store ==> r.value[path].value == [address])
              && (path in store ==>
                    var before := store[path].value;
                    && (address in before ==> r.value == store)
                    && (address !in before ==> r.value[path].value == before + [address]))
  {
    var path := ServicePath(serviceName);
    if path in store then
      match store[path]
      case None => Failure(Exception(NullPointerException, None))
      case Some(addressList) =>
        if address in addressList then Success(store)
        else Success(store[path := Some(addressList + [address])])
    else
      Success(store[path := Some([address])])
  }

  /** Registering the same address again changes nothing. */
  lemma RegisterProviderIdempotent(store: ZkStore, serviceName: string, address: string)
    requires RegisterProvider(store, serviceName, address).Success?
    ensures RegisterProvider(RegisterProvider(store, serviceName, address).value, serviceName, address)
            == RegisterProvider(store, serviceName, address)
  {
  }

  /**
   * `cancelProvider`: remove the first occurrence of the address and write the list back.
   * A missing path makes `readData` throw ZkNoNodeException, null data NullPointerException.
   */
  function CancelProvider(store: ZkStore, serviceName: string, address: string): (r: Result<ZkStore, Exception>)
    ensures ServicePath(serviceName) !in store ==> r == Failure(Exception(ZkNoNodeException, None))
    ensures var path := ServicePath(serviceName);
            path in store && store[path].None? ==> r == Failure(Exception(NullPointerException, None))
    ensures var path := ServicePath(serviceName);
            path in store && store[path].Some? ==>
              && r.Success? && r.value.Keys == store.Keys && r.value[path].Some?
              && (forall p :: p in store && p != path ==> r.value[p] == store[p])
  {
    var path := ServicePath(serviceName);
    if path !in store then Failure(Exception(ZkNoNodeException, None))
    else match store[path]
      case None => Failure(Exception(NullPointerException, None))
      case Some(addressList) => Success(store[path := Some(RemoveFirst(addressList, address))])
  }

  /**
   * On a listed path the stored list loses exactly one occurrence of the address, and an
   * address that is not listed leaves the store as it was.
   */
  lemma CancelProviderRemovesOne(store: ZkStore, serviceName: string, address: string)
    requires ServicePath(serviceName) in store && store[ServicePath(serviceName)].Some?
    ensures var path := ServicePath(serviceName);
            var r := CancelProvider(store, serviceName, address).value;
            && multiset(r[path].value) == multiset(store[path].value) - multiset{address}
            && (address !in store[path].value ==> r == store)
  {
    var path := ServicePath(serviceName);
    if address !in store[path].value {
      assert store[path := Some(store[path].value)] == store;
    }
  }

  /**
   * Cancelling a registration undoes it: an address that was not listed before is gone again,
   * and a path the registration created is left holding an empty list.
   */
  lemma CancelUndoesRegister(store: ZkStore, serviceName: string, address: string)
    requires RegisterProvider(store, serviceName, address).Success?
    requires var path := ServicePath(serviceName); path in store ==> address !in store[path].value
    ensures var path := ServicePath(serviceName);
            CancelProvider(RegisterProvider(store, serviceName, address).value, serviceName, address)
            == Success(store[path := if path in store then store[path] else Some([])])
  {
    var path := ServicePath(serviceName);
    if path in store {
      var before := store[path].value;
      RemoveFirstKeepsOrder(before + [address], address, |before|);
      assert (before + [address])[..|before|] == before;
      assert RemoveFirst(before + [address], address) == before;
      var registered := RegisterProvider(store, serviceName, address).value;
      assert registered == store[path := Some(before + [address])];
      assert registered[path := Some(before)] == store[path := store[path]];
    } else {
      RemoveFirstKeepsOrder([address], address, 0);
      assert RemoveFirst([address], address) == [];
      var registered := RegisterProvider(store, serviceName, address).value;
      assert registered == store[path := Some([address])];
      assert registered[path := Some([])] == store[path := Some([])];
    }
  }

  // ---------------------------------------------------------------------------------------
  // Consumer side: clients per address
  // ---------------------------------------------------------------------------------------

  /** `rpcNettyClientMap`, plus the identity the next new client object will get. */
  datatype ClientPool = ClientPool(byAddress: map<string, ClientRef>, nextId: nat)

  /** Each pooled client serves the address it is filed under and was allocated before `nextId`. */
  predicate PoolValid(pool: ClientPool) {
    forall a :: a in pool.byAddress ==> pool.byAddress[a].address == a && pool.byAddress[a].id < pool.nextId
  }

  /** Reuse the client of an address, or create one (`new RpcNettyClient(address).init()`) and file it. */
  function GetOrCreate(pool: ClientPool, address: string): (r: (ClientPool, ClientRef))
    ensures PoolValid(pool) ==> r.1.address == address
    ensures r.0.byAddress == pool.byAddress[address := r.1]
    ensures address in pool.byAddress ==> r == (pool, pool.byAddress[address])
    ensures address !in pool.byAddress ==>
              r.0.nextId == pool.nextId + 1 && r.1.id == pool.nextId
    ensures PoolValid(pool) ==> PoolValid(r.0)
  {
    if address in pool.byAddress then (pool, pool.byAddress[address])
    else
      var client := ClientRef(pool.nextId, address);
      (ClientPool(pool.byAddress[address := client], pool.nextId + 1), client)
  }

  /** A freshly created client is not any client already pooled. */
  lemma NewClientIsFresh(pool: ClientPool, address: string, a: string)
    requires PoolValid(pool)
    requires address !in pool.byAddress && a in pool.byAddress
    ensures GetOrCreate(pool, address).1 != pool.byAddress[a]
  {
  }

  /** For each address in order: get or create its client and append it to the list. */
  function AttachAll(pool: ClientPool, clients: seq<ClientRef>, addresses: seq<string>): (r: (ClientPool, seq<ClientRef>))
    ensures |r.1| == |clients| + |addresses|
    ensures r.1[..|clients|] == clients
    decreases |addresses|
  {
    if |addresses| == 0 then (pool, clients)
    else
      var (pool1, client) := GetOrCreate(pool, addresses[0]);
      var r := AttachAll(pool1, clients + [client], addresses[1..]);
      assert r.1[..|clients|] == r.1[..|clients| + 1][..|clients|];
      r
  }

  /**
   * Attaching reuses every pooled client, pools a client for each new address (one per
   * address), and appends to the list, for each address in order, the client pooled for it.
   */
  lemma AttachAllSpec(pool: ClientPool, clients: seq<ClientRef>, addresses: seq<string>)
    requires PoolValid(pool)
    ensures var r := AttachAll(pool, clients, addresses);
            && PoolValid(r.0)
            && (forall a :: a in r.0.byAddress <==> a in pool.byAddress || a in addresses)
            && (forall a :: a in pool.byAddress ==> r.0.byAddress[a] == pool.byAddress[a])
            && (forall i :: 0 <= i < |addresses| ==> r.1[|clients| + i] == r.0.byAddress[addresses[i]])
  {
    AttachAllPool(pool, clients, addresses);
    AttachAllClients(pool, clients, addresses);
  }

  lemma {:induction false} AttachAllPool(pool: ClientPool, clients: seq<ClientRef>, addresses: seq<string>)
    requires PoolValid(pool)
    ensures var r := AttachAll(pool, clients, addresses);
            && PoolValid(r.0)
            && (forall a :: a in r.0.byAddress <==> a in pool.byAddress || a in addresses)
            && (forall a :: a in pool.byAddress ==> r.0.byAddress[a] == pool.byAddress[a])
    decreases |addresses|
  {
    if |addresses| > 0 {
      var (pool1, client) := GetOrCreate(pool, addresses[0]);
      AttachAllPool(pool1, clients + [client], addresses[1..]);
      assert forall a :: a in addresses <==> a == addresses[0] || a in addresses[1..];
    }
  }

  lemma {:induction false} AttachAllClients(pool: ClientPool, clients: seq<ClientRef>, addresses: seq<string>)
    ensures var r := AttachAll(pool, clients, addresses);
            forall i :: 0 <= i < |addresses| ==> addresses[i] in r.0.byAddress && r.1[|clients| + i] == r.0.byAddress[addresses[i]]
    decreases |addresses|
  {
    if |addresses| > 0 {
      var (pool1, client) := GetOrCreate(pool, addresses[0]);
      AttachAllClients(pool1, clients + [client], addresses[1..]);
      AttachAllKeepsPooled(pool1, clients + [client], addresses[1..], addresses[0]);
      var r := AttachAll(pool, clients, addresses);
      assert r == AttachAll(pool1, clients + [client], addresses[1..]);
      assert r.1[|clients|] == (clients + [client])[|clients|];
      forall i | 1 <= i < |addresses|
        ensures addresses[i] in r.0.byAddress && r.1[|clients| + i] == r.0.byAddress[addresses[i]]
      {
        assert addresses[i] == addresses[1..][i - 1];
        assert |clients| + i == |clients + [client]| + (i - 1);
      }
    }
  }

  /** A pooled address keeps its client through attaching. */
  lemma {:induction false} AttachAllKeepsPooled(pool: ClientPool, clients: seq<ClientRef>, addresses: seq<string>, a: string)
    requires a in pool.byAddress
    ensures var r := AttachAll(pool, clients, addresses);
            a in r.0.byAddress && r.0.byAddress[a] == pool.byAddress[a]
    decreases |addresses|
  {
    if |addresses| > 0 {
      var (pool1, client) := GetOrCreate(pool, addresses[0]);
      AttachAllKeepsPooled(pool1, clients + [client], addresses[1..], a);
    }
  }

  /** The listener registered for one consumed service, holding its last known address list. */
  datatype Listener = Listener(serviceName: string, addressList: Option<seq<string>>)

  datatype ConsumerRegistration = ConsumerRegistration(store: ZkStore, pool: ClientPool, interceptor: Interceptor, listener: Listener)

  /**
   * `registerConsumer`: create the service path with an empty list if it is missing, read the
   * list, attach a client per listed address (reusing pooled clients), and subscribe a listener
   * that starts from the list read.
   */
  function RegisterConsumer(store: ZkStore, pool: ClientPool, it: Interceptor): (r: ConsumerRegistration)
    ensures var path := ServicePath(it.serviceName);
            && path in r.store
            && (path in store ==> r.store == store)
            && (path !in store ==> r.store == store[path := Some([])])
            && r.listener == Listener(it.serviceName, r.store[path])
    ensures r.interceptor.serviceName == it.serviceName && r.interceptor.timeout == it.timeout
    ensures var listed := r.store[ServicePath(it.serviceName)].GetOr([]);
            && |r.interceptor.clients| == |it.clients| + |listed|
            && r.interceptor.clients[..|it.clients|] == it.clients
  {
    var path := ServicePath(it.serviceName);
    var store1 := if path in store then store else store[path := Some([])];
    var addressList := store1[path];
    var (pool1, clients1) :=
      if addressList.Some? && |addressList.value| > 0 then AttachAll(pool, it.clients, addressList.value)
      else (pool, it.clients);
    ConsumerRegistration(store1, pool1, it.(clients := clients1), Listener(it.serviceName, addressList))
  }

  /**
   * Registering a consumer creates at most one client per address: pooled clients are reused,
   * and the interceptor receives, for each listed address in order, the one client pooled for it.
   */
  lemma RegisterConsumerSharesClients(store: ZkStore, pool: ClientPool, it: Interceptor)
    requires PoolValid(pool)
    ensures var r := RegisterConsumer(store, pool, it);
            var listed := r.store[ServicePath(it.serviceName)].GetOr([]);
            && PoolValid(r.pool)
            && (forall a :: a in r.pool.byAddress <==> a in pool.byAddress || a in listed)
            && (forall a :: a in pool.byAddress ==> r.pool.byAddress[a] == pool.byAddress[a])
            && (forall i :: 0 <= i < |listed| ==> r.interceptor.clients[|it.clients| + i] == r.pool.byAddress[listed[i]])
  {
    var r := RegisterConsumer(store, pool, it);
    var listed := r.store[ServicePath(it.serviceName)].GetOr([]);
    if |listed| > 0 {
      var attached := AttachAll(pool, it.clients, listed);
      assert r.pool == attached.0 && r.interceptor.clients == attached.1;
      AttachAllSpec(pool, it.clients, listed);
    } else {
      assert r.pool == pool;
    }
  }

  // ---------------------------------------------------------------------------------------
  // Change notifications
  // ---------------------------------------------------------------------------------------

  /** The interceptor's list without the clients of one address (the stream filter). */
  function DropAddress(clients: seq<ClientRef>, address: string): (r: seq<ClientRef>)
    ensures forall c :: c in r <==> c in clients && c.address != address
  {
    if |clients| == 0 then []
    else (if clients[0].address == address then [] else [clients[0]]) + DropAddress(clients[1..], address)
  }

  /**
   * The filter keeps every client of another address as often as the list held it, and no
   * client of the dropped address: multiplicity is the selection weight of `ChooseIndex`.
   */
  lemma {:induction false} DropAddressCounts(clients: seq<ClientRef>, address: string)
    ensures forall c :: multiset(DropAddress(clients, address))[c] == if c.address == address then 0 else multiset(clients)[c]
    decreases |clients|
  {
    if |clients| > 0 {
      var here: seq<ClientRef> := if clients[0].address == address then [] else [clients[0]];
      assert clients == [clients[0]] + clients[1..];
      assert DropAddress(clients, address) == here + DropAddress(clients[1..], address);
      DropAddressCounts(clients[1..], address);
    }
  }

  /** The state one notification leaves behind, and the clients it disconnected, in order. */
  datatype ChangeResult = ChangeResult(addressList: seq<string>, pool: ClientPool, clients: seq<ClientRef>,
                                       disconnected: seq<ClientRef>)

  /**
   * The first loop of `handleDataChange`, from the last index down: every address missing from
   * the notification leaves the list, the pool and the interceptor's list, and its pooled client
   * (if there still is one) is disconnected.
   */
  function Prune(addresses: seq<string>, live: seq<string>, pool: ClientPool, clients: seq<ClientRef>): (r: ChangeResult)
    ensures forall a :: a in r.addressList ==> a in addresses && a in live
    ensures r.pool.byAddress.Keys <= pool.byAddress.Keys && r.pool.nextId == pool.nextId
    decreases |addresses|
  {
    if |addresses| == 0 then ChangeResult([], pool, clients, [])
    else
      var a := addresses[|addresses| - 1];
      if a in live then
        var r := Prune(addresses[..|addresses| - 1], live, pool, clients);
        r.(addressList := r.addressList + [a])
      else
        var closed := if a in pool.byAddress then [pool.byAddress[a]] else [];
        var r := Prune(addresses[..|addresses| - 1], live, ClientPool(pool.byAddress - {a}, pool.nextId),
                       DropAddress(clients, a));
        r.(disconnected := closed + r.disconnected)
  }

  /** The second loop: every notified address not yet listed is appended with its client. */
  function Extend(addresses: seq<string>, notified: seq<string>, pool: ClientPool, clients: seq<ClientRef>)
    : (r: (seq<string>, ClientPool, seq<ClientRef>))
    ensures forall a :: a in r.0 ==> a in addresses || a in notified
    ensures pool.byAddress.Keys <= r.1.byAddress.Keys
    decreases |notified|
  {
    if |notified| == 0 then (addresses, pool, clients)
    else if notified[0] in addresses then Extend(addresses, notified[1..], pool, clients)
    else
      var (pool1, client) := GetOrCreate(pool, notified[0]);
      Extend(addresses + [notified[0]], notified[1..], pool1, clients + [client])
  }

  /**
   * `RpcZkListener.handleDataChange`: a null notification counts as an empty list, and so does
   * a null address list; then prune, then extend.
   */
  function HandleDataChange(listener: Listener, notification: Option<seq<string>>, pool: ClientPool,
                            clients: seq<ClientRef>): (r: ChangeResult)
    ensures forall a :: a in r.addressList ==> a in notification.GetOr([])
  {
    var live := notification.GetOr([]);
    var pruned := Prune(listener.addressList.GetOr([]), live, pool, clients);
    var (addresses, pool1, clients1) := Extend(pruned.addressList, live, pruned.pool, pruned.clients);
    ChangeResult(addresses, pool1, clients1, pruned.disconnected)
  }

  // Reference definitions --------------------------------------------------------------------

  /** The addresses of `s` that are still live, in their order. */
  function KeepLive(s: seq<string>, live: seq<string>): (r: seq<string>)
    ensures forall a :: a in r <==> a in s && a in live
    decreases |s|
  {
    if |s| == 0 then []
    else
      var last := s[|s| - 1];
      KeepLive(s[..|s| - 1], live) + (if last in live then [last] else [])
  }

  /** The addresses of `xs` not in `seen`, in order of first appearance, each once. */
  function NewAddresses(seen: seq<string>, xs: seq<string>): (r: seq<string>)
    ensures forall a :: a in r <==> a in xs && a !in seen
    decreases |xs|
  {
    if |xs| == 0 then []
    else if xs[0] in seen then NewAddresses(seen, xs[1..])
    else [xs[0]] + NewAddresses(seen + [xs[0]], xs[1..])
  }

  predicate NoDuplicates(s: seq<string>) {
    forall i, j :: 0 <= i < j < |s| ==> s[i] != s[j]
  }

  lemma NoDuplicatesCons(x: string, s: seq<string>)
    ensures NoDuplicates([x] + s) <==> x !in s && NoDuplicates(s)
  {
    var t := [x] + s;
    if x !in s && NoDuplicates(s) {
      forall i, j | 0 <= i < j < |t| ensures t[i] != t[j] {
        assert t[j] == s[j - 1];
        if i > 0 { assert t[i] == s[i - 1]; }
      }
    }
    if NoDuplicates(t) {
      forall i, j | 0 <= i < j < |s| ensures s[i] != s[j] {
        assert s[i] == t[i + 1] && s[j] == t[j + 1];
      }
      forall j | 0 <= j < |s| ensures s[j] != x {
        assert s[j] == t[j + 1] && t[0] == x;
      }
    }
  }

  /** A value counted twice sits at two positions. */
  lemma {:induction false} CountedTwice(s: seq<string>, x: string)
    requires multiset(s)[x] >= 2
    ensures !NoDuplicates(s)
    decreases |s|
  {
    assert s == [s[0]] + s[1..];
    NoDuplicatesCons(s[0], s[1..]);
    if s[0] == x {
      assert multiset(s[1..])[x] >= 1;
      assert x in s[1..];
    } else {
      CountedTwice(s[1..], x);
    }
  }

  lemma {:induction false} NewAddressesDistinct(seen: seq<string>, xs: seq<string>)
    ensures NoDuplicates(NewAddresses(seen, xs))
    decreases |xs|
  {
    if |xs| > 0 {
      NewAddressesDistinct(if xs[0] in seen then seen else seen + [xs[0]], xs[1..]);
      if xs[0] !in seen {
        var rest := NewAddresses(seen + [xs[0]], xs[1..]);
        assert xs[0] !in rest;
        var r := [xs[0]] + rest;
        forall i, j | 0 <= i < j < |r| ensures r[i] != r[j] {
          if i > 0 { assert r[i] == rest[i - 1] && r[j] == rest[j - 1]; }
          else { assert r[j] == rest[j - 1]; }
        }
      }
    }
  }

  // Properties ----------------------------------------------------------------------------

  /**
   * The pruning loop keeps exactly the live addresses in their order, removes each dropped
   * address from the pool and from the interceptor's list, and disconnects only pooled clients
   * of dropped addresses.
   */
  lemma {:induction false} PruneSpec(addresses: seq<string>, live: seq<string>, pool: ClientPool, clients: seq<ClientRef>)
    requires PoolValid(pool)
    ensures var r := Prune(addresses, live, pool, clients);
            && r.addressList == KeepLive(addresses, live)
            && r.pool.nextId == pool.nextId
            && r.pool.byAddress.Keys == pool.byAddress.Keys - (set a | a in addresses && a !in live)
            && (forall a :: a in r.pool.byAddress ==> r.pool.byAddress[a] == pool.byAddress[a])
            && (forall c :: c in r.clients <==> c in clients && !(c.address in addresses && c.address !in live))
            && (forall c :: c in r.disconnected ==>
                  c.address in addresses && c.address !in live && c.address in pool.byAddress
                  && pool.byAddress[c.address] == c)
    decreases |addresses|
  {
    if |addresses| > 0 {
      var a := addresses[|addresses| - 1];
      var init := addresses[..|addresses| - 1];
      assert addresses == init + [a];
      if a in live {
        PruneSpec(init, live, pool, clients);
      } else {
        var pool1 := ClientPool(pool.byAddress - {a}, pool.nextId);
        PruneSpec(init, live, pool1, DropAddress(clients, a));
      }
    }
  }

  /**
   * The pruning loop keeps every client of a surviving address as often as the interceptor's
   * list held it, and none of a dropped address.
   */
  lemma {:induction false} PruneClientCounts(addresses: seq<string>, live: seq<string>, pool: ClientPool,
                                             clients: seq<ClientRef>)
    ensures forall c :: multiset(Prune(addresses, live, pool, clients).clients)[c]
                        == if c.address in addresses && c.address !in live then 0 else multiset(clients)[c]
    decreases |addresses|
  {
    if |addresses| > 0 {
      var a := addresses[|addresses| - 1];
      var init := addresses[..|addresses| - 1];
      assert addresses == init + [a];
      assert forall x :: x in addresses <==> x in init || x == a;
      if a in live {
        PruneClientCounts(init, live, pool, clients);
      } else {
        PruneClientCounts(init, live, ClientPool(pool.byAddress - {a}, pool.nextId), DropAddress(clients, a));
        DropAddressCounts(clients, a);
      }
    }
  }

  /**
   * The extending loop appends the new addresses in notification order, each once, pools one
   * client per new address (reusing pooled ones) and appends that client to the list.
   */
  lemma {:induction false} ExtendSpec(addresses: seq<string>, notified: seq<string>, pool: ClientPool, clients: seq<ClientRef>)
    requires PoolValid(pool)
    ensures var (a', pool', clients') := Extend(addresses, notified, pool, clients);
            var added := NewAddresses(addresses, notified);
            && a' == addresses + added
            && PoolValid(pool')
            && pool'.byAddress.Keys == pool.byAddress.Keys + (set a | a in added)
            && (forall a :: a in pool.byAddress ==> pool'.byAddress[a] == pool.byAddress[a])
            && |clients'| == |clients| + |added|
            && clients'[..|clients|] == clients
            && (forall i :: 0 <= i < |added| ==> clients'[|clients| + i] == pool'.byAddress[added[i]])
  {
    ExtendList(addresses, notified, pool, clients);
    ExtendPool(addresses, notified, pool, clients);
    ExtendClients(addresses, notified, pool, clients);
  }

  lemma {:induction false} ExtendList(addresses: seq<string>, notified: seq<string>, pool: ClientPool, clients: seq<ClientRef>)
    ensures Extend(addresses, notified, pool, clients).0 == addresses + NewAddresses(addresses, notified)
    decreases |notified|
  {
    if |notified| > 0 {
      var x := notified[0];
      if x in addresses {
        ExtendList(addresses, notified[1..], pool, clients);
      } else {
        var (pool1, client) := GetOrCreate(pool, x);
        ExtendList(addresses + [x], notified[1..], pool1, clients + [client]);
        assert NewAddresses(addresses, notified) == [x] + NewAddresses(addresses + [x], notified[1..]);
      }
    }
  }

  lemma {:induction false} ExtendPool(addresses: seq<string>, notified: seq<string>, pool: ClientPool, clients: seq<ClientRef>)
    requires PoolValid(pool)
    ensures var pool' := Extend(addresses, notified, pool, clients).1;
            && PoolValid(pool')
            && pool'.byAddress.Keys == pool.byAddress.Keys + (set a | a in NewAddresses(addresses, notified))
            && (forall a :: a in pool.byAddress ==> pool'.byAddress[a] == pool.byAddress[a])
  {
    ExtendPoolKeys(addresses, notified, pool, clients);
    forall a | a in pool.byAddress
      ensures Extend(addresses, notified, pool, clients).1.byAddress[a] == pool.byAddress[a]
    {
      ExtendKeepsPooled(addresses, notified, pool, clients, a);
    }
  }

  lemma {:induction false} ExtendPoolKeys(addresses: seq<string>, notified: seq<string>, pool: ClientPool, clients: seq<ClientRef>)
    requires PoolValid(pool)
    ensures var pool' := Extend(addresses, notified, pool, clients).1;
            && PoolValid(pool')
            && pool'.byAddress.Keys == pool.byAddress.Keys + (set a | a in NewAddresses(addresses, notified))
    decreases |notified|
  {
    if |notified| > 0 {
      var x := notified[0];
      if x in addresses {
        ExtendPoolKeys(addresses, notified[1..], pool, clients);
      } else {
        var (pool1, client) := GetOrCreate(pool, x);
        ExtendPoolKeys(addresses + [x], notified[1..], pool1, clients + [client]);
        var rest := NewAddresses(addresses + [x], notified[1..]);
        assert NewAddresses(addresses, notified) == [x] + rest;
        assert (set a | a in [x] + rest) == {x} + (set a | a in rest);
      }
    }
  }

  lemma {:induction false} ExtendClients(addresses: seq<string>, notified: seq<string>, pool: ClientPool, clients: seq<ClientRef>)
    ensures var (_, pool', clients') := Extend(addresses, notified, pool, clients);
            var added := NewAddresses(addresses, notified);
            && |clients'| == |clients| + |added|
            && clients'[..|clients|] == clients
            && (forall i :: 0 <= i < |added| ==> added[i] in pool'.byAddress && clients'[|clients| + i] == pool'.byAddress[added[i]])
    decreases |notified|
  {
    if |notified| > 0 {
      var x := notified[0];
      if x in addresses {
        ExtendClients(addresses, notified[1..], pool, clients);
      } else {
        var (pool1, client) := GetOrCreate(pool, x);
        ExtendClients(addresses + [x], notified[1..], pool1, clients + [client]);
        ExtendKeepsPooled(addresses + [x], notified[1..], pool1, clients + [client], x);
        var (_, pool', clients') := Extend(addresses, notified, pool, clients);
        var rest := NewAddresses(addresses + [x], notified[1..]);
        var added := NewAddresses(addresses, notified);
        assert added == [x] + rest;
        assert clients'[..|clients| + 1] == clients + [client];
        assert clients'[..|clients|] == clients'[..|clients| + 1][..|clients|];
        forall i | 0 <= i < |added|
          ensures added[i] in pool'.byAddress && clients'[|clients| + i] == pool'.byAddress[added[i]]
        {
          if i > 0 {
            assert added[i] == rest[i - 1];
            assert |clients| + i == |clients + [client]| + (i - 1);
          }
        }
      }
    }
  }

  /** A pooled address keeps its client through the extending loop. */
  lemma {:induction false} ExtendKeepsPooled(addresses: seq<string>, notified: seq<string>, pool: ClientPool,
                                             clients: seq<ClientRef>, a: string)
    requires a in pool.byAddress
    ensures var pool' := Extend(addresses, notified, pool, clients).1;
            a in pool'.byAddress && pool'.byAddress[a] == pool.byAddress[a]
    decreases |notified|
  {
    if |notified| > 0 {
      var x := notified[0];
      if x in addresses {
        ExtendKeepsPooled(addresses, notified[1..], pool, clients, a);
      } else {
        var (pool1, client) := GetOrCreate(pool, x);
        ExtendKeepsPooled(addresses + [x], notified[1..], pool1, clients + [client], a);
      }
    }
  }

  lemma {:induction false} PruneAllLive(addresses: seq<string>, live: seq<string>, pool: ClientPool, clients: seq<ClientRef>)
    requires forall a :: a in addresses ==> a in live
    ensures Prune(addresses, live, pool, clients) == ChangeResult(addresses, pool, clients, [])
    decreases |addresses|
  {
    if |addresses| > 0 {
      var init := addresses[..|addresses| - 1];
      var last := addresses[|addresses| - 1];
      assert addresses == init + [last];
      assert last in live;
      assert forall a :: a in init ==> a in addresses;
      PruneAllLive(init, live, pool, clients);
      assert Prune(addresses, live, pool, clients) == ChangeResult(init + [last], pool, clients, []);
    }
  }

  lemma {:induction false} ExtendNothingNew(addresses: seq<string>, notified: seq<string>, pool: ClientPool, clients: seq<ClientRef>)
    requires forall a :: a in notified ==> a in addresses
    ensures Extend(addresses, notified, pool, clients) == (addresses, pool, clients)
    decreases |notified|
  {
    if |notified| > 0 {
      assert notified[0] in addresses;
      ExtendNothingNew(addresses, notified[1..], pool, clients);
    }
  }

  /**
   * After a notification the listener's list holds exactly the notified addresses: the
   * survivors in their old order, then the new ones in notification order, each once.
   */
  lemma HandleDataChangeList(listener: Listener, notification: Option<seq<string>>, pool: ClientPool,
                             clients: seq<ClientRef>)
    requires PoolValid(pool)
    ensures var r := HandleDataChange(listener, notification, pool, clients);
            var live := notification.GetOr([]);
            var kept := KeepLive(listener.addressList.GetOr([]), live);
            && r.addressList == kept + NewAddresses(kept, live)
            && NoDuplicates(NewAddresses(kept, live))
            && (forall a :: a in r.addressList <==> a in live)
            && PoolValid(r.pool)
  {
    var live := notification.GetOr([]);
    var pruned := Prune(listener.addressList.GetOr([]), live, pool, clients);
    PruneSpec(listener.addressList.GetOr([]), live, pool, clients);
    ExtendSpec(pruned.addressList, live, pruned.pool, pruned.clients);
    NewAddressesDistinct(pruned.addressList, live);
  }

  /** Every client the extending loop adds serves a notified address. */
  lemma {:induction false} ExtendAddsLive(addresses: seq<string>, notified: seq<string>, pool: ClientPool, clients: seq<ClientRef>)
    requires PoolValid(pool)
    ensures forall c :: c in Extend(addresses, notified, pool, clients).2 ==> c in clients || c.address in notified
    decreases |notified|
  {
    if |notified| > 0 {
      var x := notified[0];
      if x in addresses {
        ExtendAddsLive(addresses, notified[1..], pool, clients);
      } else {
        var (pool1, client) := GetOrCreate(pool, x);
        ExtendAddsLive(addresses + [x], notified[1..], pool1, clients + [client]);
      }
      assert forall a :: a in notified[1..] ==> a in notified;
    }
  }

  /** Every dropped address is gone from the pool and from the interceptor's list. */
  lemma HandleDataChangeDrops(listener: Listener, notification: Option<seq<string>>, pool: ClientPool,
                              clients: seq<ClientRef>)
    requires PoolValid(pool)
    ensures var r := HandleDataChange(listener, notification, pool, clients);
            var current := listener.addressList.GetOr([]);
            var live := notification.GetOr([]);
            && (forall a :: a in current && a !in live ==> a !in r.pool.byAddress)
            && (forall a, c :: a in current && a !in live && c in r.clients ==> c.address != a)
  {
    var current := listener.addressList.GetOr([]);
    var live := notification.GetOr([]);
    var pruned := Prune(current, live, pool, clients);
    PruneSpec(current, live, pool, clients);
    ExtendPool(pruned.addressList, live, pruned.pool, pruned.clients);
    ExtendAddsLive(pruned.addressList, live, pruned.pool, pruned.clients);
  }

  /** Only the pooled clients of dropped addresses are disconnected. */
  lemma HandleDataChangeDisconnects(listener: Listener, notification: Option<seq<string>>, pool: ClientPool,
                                    clients: seq<ClientRef>)
    requires PoolValid(pool)
    ensures var r := HandleDataChange(listener, notification, pool, clients);
            var current := listener.addressList.GetOr([]);
            var live := notification.GetOr([]);
            forall c :: c in r.disconnected ==> c.address in current && c.address !in live
                                                && c.address in pool.byAddress && pool.byAddress[c.address] == c
  {
    PruneSpec(listener.addressList.GetOr([]), notification.GetOr([]), pool, clients);
  }

  /** Clients of live addresses stay in the list, and every new address has its pooled client there. */
  lemma HandleDataChangeKeepsLive(listener: Listener, notification: Option<seq<string>>, pool: ClientPool,
                                  clients: seq<ClientRef>)
    requires PoolValid(pool)
    ensures var r := HandleDataChange(listener, notification, pool, clients);
            var live := notification.GetOr([]);
            var kept := KeepLive(listener.addressList.GetOr([]), live);
            && (forall c :: c in clients && c.address in live ==> c in r.clients)
            && (forall a :: a in NewAddresses(kept, live) ==> a in r.pool.byAddress && r.pool.byAddress[a] in r.clients)
  {
    var live := notification.GetOr([]);
    var pruned := Prune(listener.addressList.GetOr([]), live, pool, clients);
    PruneSpec(listener.addressList.GetOr([]), live, pool, clients);
    ExtendSpec(pruned.addressList, live, pruned.pool, pruned.clients);
    var r := HandleDataChange(listener, notification, pool, clients);
    var added := NewAddresses(pruned.addressList, live);
    assert r.clients[..|pruned.clients|] == pruned.clients;
    forall a | a in added
      ensures r.pool.byAddress[a] in r.clients
    {
      var i :| 0 <= i < |added| && added[i] == a;
      assert r.clients[|pruned.clients| + i] == r.pool.byAddress[a];
    }
    forall c | c in clients && c.address in live
      ensures c in r.clients
    {
      assert c in pruned.clients;
    }
  }

  lemma {:induction false} KeepLiveNone(s: seq<string>)
    ensures KeepLive(s, []) == []
    decreases |s|
  {
    if |s| > 0 {
      KeepLiveNone(s[..|s| - 1]);
    }
  }

  /** Applying the same notification again removes nothing, adds nothing and disconnects nothing. */
  lemma HandleDataChangeIdempotent(listener: Listener, notification: Option<seq<string>>, pool: ClientPool,
                                   clients: seq<ClientRef>)
    requires PoolValid(pool)
    ensures var r := HandleDataChange(listener, notification, pool, clients);
            HandleDataChange(listener.(addressList := Some(r.addressList)), notification, r.pool, r.clients)
            == ChangeResult(r.addressList, r.pool, r.clients, [])
  {
    var r := HandleDataChange(listener, notification, pool, clients);
    var live := notification.GetOr([]);
    HandleDataChangeList(listener, notification, pool, clients);
    PruneAllLive(r.addressList, live, r.pool, r.clients);
    ExtendNothingNew(r.addressList, live, r.pool, r.clients);
  }

  /** A null notification is handled as an empty list: every address is dropped. */
  lemma NullNotificationDropsAll(listener: Listener, pool: ClientPool, clients: seq<ClientRef>)
    requires PoolValid(pool)
    ensures HandleDataChange(listener, None, pool, clients) == HandleDataChange(listener, Some([]), pool, clients)
    ensures HandleDataChange(listener, None, pool, clients).addressList == []
    ensures forall c :: c in HandleDataChange(listener, None, pool, clients).clients ==>
              c.address !in listener.addressList.GetOr([])
  {
    HandleDataChangeList(listener, None, pool, clients);
    HandleDataChangeDrops(listener, None, pool, clients);
    KeepLiveNone(listener.addressList.GetOr([]));
  }

  /**
   * The client map is shared by every consumed service: when two services list the same
   * address they hold the same client, and a notification that drops the address for one of
   * them disconnects that client while the other service's interceptor still holds it.
   */
  lemma SharedClientDisconnectedForAll()
    ensures var store := map[ServicePath("A") := Some(["h:1"]), ServicePath("B") := Some(["h:1"])];
            var forA := RegisterConsumer(store, ClientPool(map[], 0), Interceptor("A", 5000, []));
            var forB := RegisterConsumer(forA.store, forA.pool, Interceptor("B", 5000, []));
            var change := HandleDataChange(forA.listener, Some([]), forB.pool, forA.interceptor.clients);
            && forA.interceptor.clients == forB.interceptor.clients == [ClientRef(0, "h:1")]
            && change.disconnected == [ClientRef(0, "h:1")]
            && change.clients == []
  {
    var store := map[ServicePath("A") := Some(["h:1"]), ServicePath("B") := Some(["h:1"])];
    assert ServicePath("A")[|ZK_PATH|] != ServicePath("B")[|ZK_PATH|];
    var forA := RegisterConsumer(store, ClientPool(map[], 0), Interceptor("A", 5000, []));
    assert forA.store == store && forA.listener.addressList == Some(["h:1"]);
    assert forA.pool == ClientPool(map["h:1" := ClientRef(0, "h:1")], 1);
    var forB := RegisterConsumer(forA.store, forA.pool, Interceptor("B", 5000, []));
    assert forB.pool == forA.pool;
  }
}

=== FILE: consumer_interceptor.dfy ===
/**
 * `RpcConsumerMethodInterceptor.intercept`: the call driver. It turns a proxied method call into
 * a request, fails fast when the service has no provider, and sends through one client picked
 * at random.
 */
module ConsumerInterceptor {
  import opened Wrappers
  import opened Dto
  import opened NameUtils

  /** A reference to one `RpcNettyClient` object: its identity and the address it serves. */
  datatype ClientRef = ClientRef(id: nat, address: string)

  /** The interceptor of one consumed service: its key, the call timeout and its client list. */
  datatype Interceptor = Interceptor(serviceName: string, timeout: int, clients: seq<ClientRef>)

  /** Request ids are the first 16 characters of a random UUID's text. */
  const REQUEST_ID_LENGTH: nat := 16

  function BuildRequest(serviceName: string, callee: MethodDesc, args: seq<Value>, uuidText: string): (r: Request)
    requires |uuidText| >= REQUEST_ID_LENGTH
    ensures |r.requestId| == REQUEST_ID_LENGTH
    ensures r.requestId <= uuidText
    ensures r.serviceName == serviceName && r.methodName == BuildMethodName(callee) && r.params == args
  {
    Request(uuidText[..REQUEST_ID_LENGTH], serviceName, BuildMethodName(callee), args)
  }

  /**
   * `(int) (Math.random() * size)` for a random `pick` in [0, 1): always an index of the list,
   * each index owning a slice of width 1/size of the random range.
   */
  function ChooseIndex(pick: real, size: nat): (k: nat)
    requires 0.0 <= pick < 1.0
    requires size > 0
    ensures k < size
    ensures k as real <= pick * size as real < k as real + 1.0
  {
    var x := pick * size as real;
    ScaledPick(pick, size as real);
    FloorBelow(x, size);
    x.Floor
  }

  lemma FloorBelow(x: real, n: nat)
    requires 0.0 <= x < n as real
    ensures 0 <= x.Floor < n
    ensures x.Floor as real <= x < x.Floor as real + 1.0
  {
  }

  lemma ScaledPick(pick: real, n: real)
    requires 0.0 <= pick < 1.0 && n > 0.0
    ensures 0.0 <= pick * n < n
  {
  }

  /** The random choice is uniform: index `k` is chosen exactly for picks in [k/size, (k+1)/size). */
  lemma ChooseIndexUniform(pick: real, size: nat, k: nat)
    requires 0.0 <= pick < 1.0
    requires k < size
    ensures ChooseIndex(pick, size) == k <==>
            k as real / size as real <= pick < (k as real + 1.0) / size as real
  {
    var n := size as real;
    var x := pick * n;
    assert k as real / n <= pick <==> k as real <= x;
    assert pick < (k as real + 1.0) / n <==> x < k as real + 1.0;
  }

  /** One intercepted call: the request built, the client chosen (if any) and what the caller gets. */
  datatype Invocation = Invocation(request: Request, target: Option<ClientRef>, outcome: CallOutcome)

  /**
   * `intercept`: build the request, throw ProviderNotFindException without sending when the
   * client list is empty, otherwise send through the chosen client and hand back its result or
   * its exception unchanged. `send` stands for `RpcNettyClient.sendRpcRequest`.
   */
  function Intercept(it: Interceptor, callee: MethodDesc, args: seq<Value>, uuidText: string, pick: real,
                     send: (ClientRef, Request, int) -> CallOutcome): (r: Invocation)
    requires |uuidText| >= REQUEST_ID_LENGTH
    requires 0.0 <= pick < 1.0
    ensures |r.request.requestId| == REQUEST_ID_LENGTH
    ensures r.request == BuildRequest(it.serviceName, callee, args, uuidText)
    ensures r.target.None? <==> |it.clients| == 0
    ensures r.target.None? ==>
              r.outcome == Thrown(Exception(ProviderNotFindException, Some(it.serviceName + " have no provider !")))
    ensures r.target.Some? ==> r.target.value in it.clients
    ensures r.target.Some? ==> r.target.value == it.clients[ChooseIndex(pick, |it.clients|)]
    ensures r.target.Some? ==> r.outcome == send(r.target.value, r.request, it.timeout)
  {
    var request := BuildRequest(it.serviceName, callee, args, uuidText);
    if |it.clients| == 0 then
      Invocation(request, None, Thrown(Exception(ProviderNotFindException, Some(it.serviceName + " have no provider !"))))
    else
      var target := it.clients[ChooseIndex(pick, |it.clients|)];
      Invocation(request, Some(target), send(target, request, it.timeout))
  }

  /** Every client of a non-empty list can be chosen. */
  lemma EveryClientReachable(it: Interceptor, callee: MethodDesc, args: seq<Value>, uuidText: string,
                             send: (ClientRef, Request, int) -> CallOutcome, k: nat)
    requires |uuidText| >= REQUEST_ID_LENGTH
    requires k < |it.clients|
    ensures Intercept(it, callee, args, uuidText, k as real / |it.clients| as real, send).target == Some(it.clients[k])
  {
    var n := |it.clients| as real;
    var pick := k as real / n;
    SliceStart(k as real, n);
    assert ChooseIndex(pick, |it.clients|) == k;
  }

  lemma SliceStart(a: real, n: real)
    requires 0.0 <= a < n
    ensures 0.0 <= a / n < 1.0 && (a / n) * n == a
  {
  }
}

=== FILE: dto.dfy ===
/**
 * The messages exchanged on the wire and the few Java runtime values they carry.
 * Payload objects are opaque: the model never looks inside a parameter or a result.
 */
module Dto {
  import opened Wrappers

  /** An opaque Java object reference; `Null` is the null reference. */
  datatype Value = Null | Obj(token: string)

  /** The exception classes the core throws or forwards. */
  datatype ExceptionKind =
    | RpcConnectException
    | ProviderNotFindException
    | NullPointerException
    | PlainException             // java.lang.Exception built by the framework itself
    | ZkNoNodeException
    | IndexOutOfBoundsException
    | ArrayIndexOutOfBoundsException
    | NumberFormatException
    | IllegalArgumentException
    | Other(className: string)   // anything raised by collaborators or user code

  /** A thrown exception: its class and its (possibly null) message. */
  datatype Exception = Exception(kind: ExceptionKind, message: Option<string>)

  /** A consumer's call: RpcRequestDTO {requestId, serviceName, methodName, params}. */
  datatype Request = Request(requestId: string, serviceName: string, methodName: string, params: seq<Value>)

  /** A provider's answer: RpcResponseDTO {requestId, hasError, throwable, result}. */
  datatype Response = Response(requestId: string, hasError: bool, throwable: Option<Exception>, result: Value)

  /**
   * A reflective `java.lang.reflect.Method` as far as the framework uses it: its name and its
   * declared parameter types (the framework itself only ever looks at how many there are).
   */
  datatype MethodDesc = MethodDesc(name: string, parameterTypes: seq<string>) {
    function ParameterCount(): nat {
      |parameterTypes|
    }
  }

  /** The outcome of a call that either returns a value or throws. */
  datatype CallOutcome = Returned(value: Value) | Thrown(error: Exception)
}

=== FILE: framing.dfy ===
/**
 * The wire codec: `HessianObjectEncoder` writes a 4-byte big-endian length in front of the
 * serialized message, the frame decoder strips it again, and both channel pipelines wrap the
 * result in a second 4-byte length (`LengthFieldPrepender(4)` outbound,
 * `LengthFieldBasedFrameDecoder(max, 0, 4, 0, 4)` inbound). The serialized message itself is
 * an opaque byte sequence.
 */
module Framing {
  import opened Wrappers
  import opened Dto
  import JavaText

  newtype byte = x: int | 0 <= x < 256

  const LENGTH_FIELD_LENGTH: nat := 4

  /** The four zero bytes the encoder reserves before it knows the length. */
  const LENGTH_PLACEHOLDER: seq<byte> := [0, 0, 0, 0]

  /** A ByteBuf's writer index never exceeds its maximum capacity, `Integer.MAX_VALUE`. */
  const MAX_CAPACITY: nat := JavaText.INT_MAX

  const TWO_32: nat := 0x1_0000_0000

  /** Four bytes holding `n`, most significant first. */
  function BigEndian32(n: nat): (b: seq<byte>)
    requires n < TWO_32
    ensures |b| == 4
  {
    [(n / 0x100_0000) as byte, (n / 0x1_0000 % 0x100) as byte, (n / 0x100 % 0x100) as byte, (n % 0x100) as byte]
  }

  /** `ByteBuf.getUnsignedInt(idx)`: four bytes at `idx` read most significant first. */
  function GetUnsignedInt(buf: seq<byte>, idx: nat): (n: nat)
    requires idx + 4 <= |buf|
    ensures n < TWO_32
  {
    ((buf[idx] as int * 0x100 + buf[idx + 1] as int) * 0x100 + buf[idx + 2] as int) * 0x100 + buf[idx + 3] as int
  }

  /** `ByteBuf.setInt(idx, v)`: the 32-bit two's complement of `v` written over four bytes. */
  function SetInt(buf: seq<byte>, idx: nat, v: int): (r: seq<byte>)
    requires idx + 4 <= |buf|
    requires JavaText.IsJavaInt(v)
    ensures |r| == |buf|
  {
    buf[..idx] + BigEndian32(v % TWO_32) + buf[idx + 4..]
  }

  lemma ReadBigEndian32(n: nat, before: seq<byte>, after: seq<byte>)
    requires n < TWO_32
    ensures GetUnsignedInt(before + BigEndian32(n) + after, |before|) == n
  {
    var b := before + BigEndian32(n) + after;
    var i := |before|;
    assert b[i] as int == n / 0x100_0000;
    assert b[i + 1] as int == n / 0x1_0000 % 0x100;
    assert b[i + 2] as int == n / 0x100 % 0x100;
    assert b[i + 3] as int == n % 0x100;
    assert n / 0x100_0000 * 0x100 + n / 0x1_0000 % 0x100 == n / 0x1_0000;
    assert n / 0x1_0000 * 0x100 + n / 0x100 % 0x100 == n / 0x100;
    assert n / 0x100 * 0x100 + n % 0x100 == n;
  }

  /**
   * `HessianObjectEncoder.encode`: remember the writer index, write the placeholder and the
   * serialized message, then patch the placeholder with the number of bytes written after it.
   * Growing the buffer past its maximum capacity throws IndexOutOfBoundsException.
   */
  function HessianEncode(out: seq<byte>, payload: seq<byte>): (r: Result<seq<byte>, Exception>)
    ensures r.Success? <==> |out| + LENGTH_FIELD_LENGTH + |payload| <= MAX_CAPACITY
    ensures r.Success? ==> r.value == out + BigEndian32(|payload|) + payload
  {
    var startIdx := |out|;
    if |out| + LENGTH_FIELD_LENGTH + |payload| > MAX_CAPACITY then
      Failure(Exception(IndexOutOfBoundsException, None))
    else
      SetIntOverPlaceholder(out, payload);
      Success(SetInt(out + LENGTH_PLACEHOLDER + payload, startIdx, |payload|))
  }

  /** Patching the placeholder with the message size yields the length field proper. */
  lemma SetIntOverPlaceholder(out: seq<byte>, payload: seq<byte>)
    requires |out| + LENGTH_FIELD_LENGTH + |payload| <= MAX_CAPACITY
    ensures SetInt(out + LENGTH_PLACEHOLDER + payload, |out|, |payload|) == out + BigEndian32(|payload|) + payload
  {
    var written := out + LENGTH_PLACEHOLDER + payload;
    assert written[..|out|] == out;
    assert written[|out| + 4..] == payload;
    assert |payload| % TWO_32 == |payload|;
  }

  /**
   * The encoder appends to what the buffer already held: the old bytes stay in front, the
   * length field reads back as the message's size, and the message follows it unchanged.
   */
  lemma HessianEncodeLayout(out: seq<byte>, payload: seq<byte>)
    requires |out| + LENGTH_FIELD_LENGTH + |payload| <= MAX_CAPACITY
    ensures HessianEncode(out, payload).Success?
    ensures |HessianEncode(out, payload).value| == |out| + LENGTH_FIELD_LENGTH + |payload|
    ensures HessianEncode(out, payload).value[..|out|] == out
    ensures GetUnsignedInt(HessianEncode(out, payload).value, |out|) == |payload|
    ensures HessianEncode(out, payload).value[|out| + LENGTH_FIELD_LENGTH..] == payload
  {
    var r := HessianEncode(out, payload).value;
    assert r == out + BigEndian32(|payload|) + payload;
    ReadBigEndian32(|payload|, out, payload);
  }

  /**
   * The parameters of netty's `LengthFieldBasedFrameDecoder` for a 4-byte unsigned big-endian
   * length field (the only width this program uses).
   */
  datatype FrameDecoderConfig = FrameDecoderConfig(maxFrameLength: nat, lengthFieldOffset: nat, lengthAdjustment: int,
                                                   initialBytesToStrip: nat)

  /** `HessianObjectDecoder(Integer.MAX_VALUE)`: `super(maxObjectSize, 0, 4, 0, 4)`. */
  const HESSIAN_DECODER: FrameDecoderConfig := FrameDecoderConfig(JavaText.INT_MAX, 0, 0, 4)

  /** The outer `LengthFieldBasedFrameDecoder(RPC_DECODER_MAX_MAX_FRAME_LENGTH, 0, 4, 0, 4)` of both pipelines. */
  const PIPELINE_FRAME_DECODER: FrameDecoderConfig := FrameDecoderConfig(JavaText.INT_MAX, 0, 0, 4)

  /**
   * One decode attempt: not enough bytes yet, a frame and what follows it, a corrupt length
   * (CorruptedFrameException), or a frame longer than the maximum (TooLongFrameException).
   */
  datatype DecodeStep = NeedMore | Frame(frame: seq<byte>, rest: seq<byte>) | Corrupted | TooLongFrame

  /**
   * One call of `LengthFieldBasedFrameDecoder.decode` on the accumulated input. The frame
   * length, length field included, is compared with the maximum before the decoder waits for
   * the frame's bytes.
   */
  function LengthFieldDecode(cfg: FrameDecoderConfig, input: seq<byte>): (r: DecodeStep)
    ensures r.Frame? ==> cfg.initialBytesToStrip <= |input| && input[..cfg.initialBytesToStrip] + r.frame + r.rest == input
    ensures r.Frame? ==> cfg.initialBytesToStrip + |r.frame| <= cfg.maxFrameLength
    ensures r.TooLongFrame? ==> cfg.lengthFieldOffset + LENGTH_FIELD_LENGTH <= |input|
  {
    var endOffset := cfg.lengthFieldOffset + LENGTH_FIELD_LENGTH;
    if |input| < endOffset then NeedMore
    else
      var frameLength := GetUnsignedInt(input, cfg.lengthFieldOffset) + cfg.lengthAdjustment + endOffset;
      if frameLength < endOffset then Corrupted
      else if frameLength > cfg.maxFrameLength then TooLongFrame
      else if |input| < frameLength then NeedMore
      else if cfg.initialBytesToStrip > frameLength then Corrupted
      else
        assert input[..cfg.initialBytesToStrip] + input[cfg.initialBytesToStrip..frameLength] + input[frameLength..] == input;
        Frame(input[cfg.initialBytesToStrip..frameLength], input[frameLength..])
  }

  /**
   * `HessianObjectDecoder.decode`: no frame yet means `null` (nothing consumed); a declared
   * length N with 4 + N beyond `Integer.MAX_VALUE` throws TooLongFrameException; otherwise the
   * frame body, with the 4-byte length at offset 0 stripped, is what gets deserialized.
   */
  function HessianDecode(input: seq<byte>): (r: DecodeStep)
    ensures |input| < 4 ==> r == NeedMore
    ensures 4 <= |input| && 4 + GetUnsignedInt(input, 0) > JavaText.INT_MAX ==> r == TooLongFrame
    ensures 4 <= |input| < 4 + GetUnsignedInt(input, 0) <= JavaText.INT_MAX ==> r == NeedMore
    ensures 4 <= |input| && 4 + GetUnsignedInt(input, 0) <= |input| && 4 + GetUnsignedInt(input, 0) <= JavaText.INT_MAX ==>
              var n := GetUnsignedInt(input, 0);
              r == Frame(input[4..4 + n], input[4 + n..])
    ensures !r.Corrupted?
  {
    LengthFieldDecode(HESSIAN_DECODER, input)
  }

  /** A length field of all ones, the largest unsigned value, is refused however many bytes follow. */
  lemma HessianAllOnesTooLong(rest: seq<byte>)
    ensures HessianDecode([255, 255, 255, 255] + rest) == TooLongFrame
  {
    var input: seq<byte> := [255, 255, 255, 255] + rest;
    assert input[0] == 255 && input[1] == 255 && input[2] == 255 && input[3] == 255;
    assert GetUnsignedInt(input, 0) == TWO_32 - 1;
  }

  /** Decoding an encoded message returns it, and whatever followed stays for the next frame. */
  lemma HessianRoundTrip(payload: seq<byte>, rest: seq<byte>)
    requires LENGTH_FIELD_LENGTH + |payload| <= MAX_CAPACITY
    ensures HessianEncode([], payload).Success?
    ensures HessianDecode(HessianEncode([], payload).value + rest) == Frame(payload, rest)
  {
    var n := |payload|;
    var wire := HessianEncode([], payload).value + rest;
    assert wire == [] + BigEndian32(n) + (payload + rest);
    ReadBigEndian32(n, [], payload + rest);
    assert wire[4..4 + n] == payload;
    assert wire[4 + n..] == rest;
  }

  /** Any strict prefix of an encoded message is an incomplete frame: nothing is consumed. */
  lemma HessianIncomplete(payload: seq<byte>, k: nat)
    requires LENGTH_FIELD_LENGTH + |payload| <= MAX_CAPACITY
    requires k < LENGTH_FIELD_LENGTH + |payload|
    ensures HessianEncode([], payload).Success?
    ensures HessianDecode(HessianEncode([], payload).value[..k]) == NeedMore
  {
    var prefix := HessianEncode([], payload).value[..k];
    if k >= 4 {
      assert prefix == [] + BigEndian32(|payload|) + prefix[4..];
      ReadBigEndian32(|payload|, [], prefix[4..]);
    }
  }

  /** `LengthFieldPrepender(4)`: the message's length as a 4-byte big-endian int, then the message. */
  function Prepend(msg: seq<byte>): (r: seq<byte>)
    requires |msg| <= MAX_CAPACITY
    ensures |r| == LENGTH_FIELD_LENGTH + |msg|
    ensures GetUnsignedInt(r, 0) == |msg| && r[LENGTH_FIELD_LENGTH..] == msg
  {
    ReadBigEndian32(|msg|, [], msg);
    assert [] + BigEndian32(|msg|) + msg == BigEndian32(|msg|) + msg;
    BigEndian32(|msg|) + msg
  }

  /**
   * Outbound pipeline: the Hessian encoder fills a fresh buffer, then the prepender adds the
   * outer length.
   */
  function PipelineEncode(payload: seq<byte>): (r: Result<seq<byte>, Exception>)
    ensures r.Success? <==> LENGTH_FIELD_LENGTH + |payload| <= MAX_CAPACITY
    ensures r.Success? ==>
              r.value == BigEndian32(LENGTH_FIELD_LENGTH + |payload|) + BigEndian32(|payload|) + payload
  {
    match HessianEncode([], payload)
    case Failure(e) => Failure(e)
    case Success(frame) => Success(Prepend(frame))
  }

  /** The inbound pipeline after one attempt on the received bytes. */
  datatype PipelineStep =
    | WireNeedMore
    | Delivered(payload: seq<byte>, innerLeftover: seq<byte>, rest: seq<byte>)
    | InnerNeedMore(innerBuffered: seq<byte>, rest: seq<byte>)
    | PipelineCorrupted
    | PipelineTooLong

  /**
   * Inbound pipeline with an empty inner buffer: the outer frame decoder cuts one frame off the
   * received bytes, and the Hessian decoder looks for its own frame inside it. Either decoder
   * may throw TooLongFrameException.
   */
  function PipelineDecode(wire: seq<byte>): (r: PipelineStep)
    ensures r.Delivered? ==>
              && 8 <= |wire|
              && 8 <= 4 + GetUnsignedInt(wire, 0) <= |wire|
              && 8 + GetUnsignedInt(wire, 4) <= 4 + GetUnsignedInt(wire, 0)
              && r.rest == wire[4 + GetUnsignedInt(wire, 0)..]
              && r.payload == wire[8..8 + GetUnsignedInt(wire, 4)]
              && r.payload + r.innerLeftover == wire[8..4 + GetUnsignedInt(wire, 0)]
  {
    match LengthFieldDecode(PIPELINE_FRAME_DECODER, wire)
    case NeedMore => WireNeedMore
    case Corrupted => PipelineCorrupted
    case TooLongFrame => PipelineTooLong
    case Frame(outer, rest) =>
      match HessianDecode(outer)
      case Frame(payload, leftover) =>
        var n := GetUnsignedInt(wire, 0);
        assert outer == wire[4..4 + n];
        assert GetUnsignedInt(outer, 0) == GetUnsignedInt(wire, 4);
        var m := GetUnsignedInt(outer, 0);
        assert payload == outer[4..4 + m] && leftover == outer[4 + m..];
        assert payload == wire[8..8 + m];
        assert payload + leftover == outer[4..];
        Delivered(payload, leftover, rest)
      case TooLongFrame => PipelineTooLong
      case Corrupted => PipelineCorrupted
      case NeedMore => InnerNeedMore(outer, rest)
  }

  /**
   * The outer length counts the inner length field too, so a message within 8 bytes of
   * `Integer.MAX_VALUE` is encoded but refused by the receiving frame decoder.
   */
  lemma PipelineNearMaxTooLong(payload: seq<byte>, rest: seq<byte>)
    requires LENGTH_FIELD_LENGTH + |payload| <= MAX_CAPACITY < 2 * LENGTH_FIELD_LENGTH + |payload|
    ensures PipelineEncode(payload).Success?
    ensures PipelineDecode(PipelineEncode(payload).value + rest) == PipelineTooLong
  {
    var inner := HessianEncode([], payload).value;
    var wire := PipelineEncode(payload).value + rest;
    assert wire == [] + BigEndian32(|inner|) + (inner + rest);
    ReadBigEndian32(|inner|, [], inner + rest);
  }

  /** The two-layer round trip returns the payload and leaves the following bytes untouched. */
  lemma PipelineRoundTrip(payload: seq<byte>, rest: seq<byte>)
    requires 2 * LENGTH_FIELD_LENGTH + |payload| <= MAX_CAPACITY
    ensures PipelineEncode(payload).Success?
    ensures PipelineDecode(PipelineEncode(payload).value + rest) == Delivered(payload, [], rest)
  {
    var inner := HessianEncode([], payload).value;
    var wire := PipelineEncode(payload).value + rest;
    assert wire == [] + BigEndian32(|inner|) + (inner + rest);
    ReadBigEndian32(|inner|, [], inner + rest);
    assert wire[4..4 + |inner|] == inner;
    assert wire[4 + |inner|..] == rest;
    assert LengthFieldDecode(PIPELINE_FRAME_DECODER, wire) == Frame(inner, rest);
    HessianRoundTrip(payload, []);
    assert inner + [] == inner;
    assert HessianDecode(inner) == Frame(payload, []);
  }

  /** A strict prefix of the two-layer encoding is held back by the outer decoder. */
  lemma PipelineIncomplete(payload: seq<byte>, k: nat)
    requires 2 * LENGTH_FIELD_LENGTH + |payload| <= MAX_CAPACITY
    requires k < 2 * LENGTH_FIELD_LENGTH + |payload|
    ensures PipelineEncode(payload).Success?
    ensures PipelineDecode(PipelineEncode(payload).value[..k]) == WireNeedMore
  {
    OuterIncomplete(payload, k);
  }

  /** The outer frame decoder alone holds back every strict prefix of a two-layer encoding. */
  lemma OuterIncomplete(payload: seq<byte>, k: nat)
    requires 2 * LENGTH_FIELD_LENGTH + |payload| <= MAX_CAPACITY
    requires k < 2 * LENGTH_FIELD_LENGTH + |payload|
    ensures PipelineEncode(payload).Success?
    ensures LengthFieldDecode(PIPELINE_FRAME_DECODER, PipelineEncode(payload).value[..k]) == NeedMore
  {
    var inner := HessianEncode([], payload).value;
    var wire := PipelineEncode(payload).value;
    assert wire == Prepend(inner);
    OuterHoldsBack(wire, k);
  }

  /** A frame whose declared length fits is held back until all of it has arrived. */
  lemma OuterHoldsBack(wire: seq<byte>, k: nat)
    requires 4 <= |wire| && |wire| == LENGTH_FIELD_LENGTH + GetUnsignedInt(wire, 0) <= JavaText.INT_MAX
    requires k < |wire|
    ensures LengthFieldDecode(PIPELINE_FRAME_DECODER, wire[..k]) == NeedMore
  {
    if k >= 4 {
      PrefixKeepsLength(wire, k);
    }
  }

  /** Cutting bytes off the end leaves a readable length field as it was. */
  lemma PrefixKeepsLength(buf: seq<byte>, k: nat)
    requires 4 <= k <= |buf|
    ensures GetUnsignedInt(buf[..k], 0) == GetUnsignedInt(buf, 0)
  {
    assert buf[..k][..4] == buf[..4];
  }

  /** The messages of consecutive frames, as a decoder reading in a loop hands them on. */
  function DecodeAll(input: seq<byte>): (r: (seq<seq<byte>>, seq<byte>))
    decreases |input|
  {
    match HessianDecode(input)
    case Frame(payload, rest) =>
      var (more, tail) := DecodeAll(rest);
      ([payload] + more, tail)
    case _ => ([], input)
  }

  /** Every message encoded in a row, each in its own fresh buffer. */
  function EncodeAll(payloads: seq<seq<byte>>): seq<byte>
    requires forall i :: 0 <= i < |payloads| ==> LENGTH_FIELD_LENGTH + |payloads[i]| <= MAX_CAPACITY
  {
    if |payloads| == 0 then [] else HessianEncode([], payloads[0]).value + EncodeAll(payloads[1..])
  }

  /** A decoded frame is handed on first, ahead of whatever the remaining bytes decode to. */
  lemma DecodeAllStep(input: seq<byte>, payload: seq<byte>, rest: seq<byte>)
    requires HessianDecode(input) == Frame(payload, rest)
    ensures DecodeAll(input) == ([payload] + DecodeAll(rest).0, DecodeAll(rest).1)
  {
  }

  /**
   * A stream of encoded messages followed by an incomplete frame decodes to exactly those
   * messages, in order, with the incomplete frame kept back.
   */
  lemma {:induction false} DecodeAllEncodeAll(payloads: seq<seq<byte>>, tail: seq<byte>)
    requires forall i :: 0 <= i < |payloads| ==> LENGTH_FIELD_LENGTH + |payloads[i]| <= MAX_CAPACITY
    requires HessianDecode(tail) == NeedMore
    ensures DecodeAll(EncodeAll(payloads) + tail) == (payloads, tail)
    decreases |payloads|
  {
    if |payloads| > 0 {
      var p0 := payloads[0];
      var first := HessianEncode([], p0).value;
      var later := EncodeAll(payloads[1..]) + tail;
      assert EncodeAll(payloads) + tail == first + later;
      assert HessianDecode(first + later) == Frame(p0, later) by {
        HessianRoundTrip(p0, later);
      }
      DecodeAllEncodeAll(payloads[1..], tail);
      DecodeAllStep(first + later, p0, later);
      assert [p0] + payloads[1..] == payloads;
    } else {
      assert EncodeAll(payloads) + tail == tail;
    }
  }
}

=== FILE: java_text.dfy ===
/**
 * The small part of java.lang that the naming scheme and the address parser rely on:
 * `int` range, decimal rendering of an `int`, `Integer.parseInt` and `String.split`
 * with a one-character separator.
 */
module JavaText {
  import opened Wrappers

  const INT_MIN: int := -0x8000_0000
  const INT_MAX: int := 0x7FFF_FFFF

  /** The values of a Java `int` (and of a non-null `Integer`). */
  predicate IsJavaInt(n: int) {
    INT_MIN <= n <= INT_MAX
  }

  predicate IsDigit(c: char) {
    '0' <= c <= '9'
  }

  predicate AllDigits(s: string) {
    forall i :: 0 <= i < |s| ==> IsDigit(s[i])
  }

  function DigitChar(d: nat): (c: char)
    requires d < 10
    ensures IsDigit(c)
    ensures c as int - '0' as int == d
  {
    ('0' as int + d) as char
  }

  /** Decimal digits of a natural number, most significant first, without leading zeros. */
  function NatDigits(n: nat): (s: string)
    ensures 1 <= |s|
    ensures AllDigits(s)
    decreases n
  {
    if n < 10 then [DigitChar(n)] else NatDigits(n / 10) + [DigitChar(n % 10)]
  }

  /** The value of a string of decimal digits. */
  function DigitsValue(s: string): nat
    requires AllDigits(s)
  {
    if |s| == 0 then 0 else DigitsValue(s[..|s| - 1]) * 10 + (s[|s| - 1] as int - '0' as int)
  }

  lemma {:induction false} DigitsValueOfNatDigits(n: nat)
    ensures DigitsValue(NatDigits(n)) == n
    decreases n
  {
    if n >= 10 {
      var s := NatDigits(n);
      assert s[..|s| - 1] == NatDigits(n / 10);
      DigitsValueOfNatDigits(n / 10);
    }
  }

  /** Digit strings hold nothing but digits. */
  lemma {:induction false} NatDigitsHaveNoSeparator(n: nat, c: char)
    requires !IsDigit(c)
    ensures c !in NatDigits(n)
    decreases n
  {
    if n >= 10 {
      NatDigitsHaveNoSeparator(n / 10, c);
    }
  }

  /** Decimal rendering of an integer as Java's string concatenation produces it. */
  function Decimal(n: int): string {
    if n < 0 then "-" + NatDigits(-n) else NatDigits(n)
  }

  /** The rendering of an integer holds no character other than digits and `-`. */
  lemma DecimalHasNoSeparator(n: int, c: char)
    requires !IsDigit(c) && c != '-'
    ensures c !in Decimal(n)
  {
    NatDigitsHaveNoSeparator(if n < 0 then -n else n, c);
  }

  /**
   * `Integer.parseInt(s)`: an optional sign followed by at least one decimal digit, whose
   * value fits in an `int`. `None` stands for the NumberFormatException.
   */
  function ParseInt(s: string): (r: Option<int>)
    ensures r.Some? ==> IsJavaInt(r.value)
    ensures r.Some? ==> 1 <= |s| && (IsDigit(s[0]) || s[0] == '-' || s[0] == '+')
  {
    if |s| == 0 then None
    else
      var signed := s[0] == '-' || s[0] == '+';
      var body := if signed then s[1..] else s;
      if |body| == 0 || !AllDigits(body) then None
      else
        var v: int := if s[0] == '-' then 0 - DigitsValue(body) else DigitsValue(body);
        if IsJavaInt(v) then Some(v) else None
  }

  /** Parsing the decimal rendering of any Java `int` gives the number back. */
  lemma ParseDecimal(n: int)
    requires IsJavaInt(n)
    ensures ParseInt(Decimal(n)) == Some(n)
  {
    var s := Decimal(n);
    if n < 0 {
      var body := NatDigits(-n);
      assert s == "-" + body && s[0] == '-' && s[1..] == body;
      DigitsValueOfNatDigits(-n);
      assert 0 - DigitsValue(body) == n;
    } else {
      assert s == NatDigits(n) && IsDigit(s[0]);
      DigitsValueOfNatDigits(n);
    }
  }

  /** The rendering of a natural number is injective. */
  lemma NatDigitsInjective(a: nat, b: nat)
    requires NatDigits(a) == NatDigits(b)
    ensures a == b
  {
    DigitsValueOfNatDigits(a);
    DigitsValueOfNatDigits(b);
  }

  /** Every piece between separators, including empty ones, in order. */
  function SplitAll(s: string, sep: char): (parts: seq<string>)
    ensures 1 <= |parts|
  {
    if |s| == 0 then [""]
    else
      var rest := SplitAll(s[1..], sep);
      if s[0] == sep then [""] + rest else [[s[0]] + rest[0]] + rest[1..]
  }

  function DropTrailingEmpty(parts: seq<string>): seq<string> {
    if |parts| > 0 && parts[|parts| - 1] == "" then DropTrailingEmpty(parts[..|parts| - 1]) else parts
  }

  /**
   * `s.split(sep)` for a one-character, non-special separator: the whole string when the
   * separator does not occur, otherwise every piece with the trailing empty pieces dropped.
   */
  function JavaSplit(s: string, sep: char): seq<string> {
    if sep !in s then [s] else DropTrailingEmpty(SplitAll(s, sep))
  }

  /** No piece of a split holds the separator. */
  lemma JavaSplitPieces(s: string, sep: char)
    ensures forall i :: 0 <= i < |JavaSplit(s, sep)| ==> sep !in JavaSplit(s, sep)[i]
  {
    if sep in s {
      SplitAllPieces(s, sep);
      DropTrailingEmptyPrefix(SplitAll(s, sep));
    }
  }

  lemma {:induction false} SplitAllPieces(s: string, sep: char)
    ensures forall i :: 0 <= i < |SplitAll(s, sep)| ==> sep !in SplitAll(s, sep)[i]
    decreases |s|
  {
    if |s| > 0 {
      var rest := SplitAll(s[1..], sep);
      var r := SplitAll(s, sep);
      SplitAllPieces(s[1..], sep);
      if s[0] == sep {
        assert r == [""] + rest;
        forall i | 0 < i < |r| ensures sep !in r[i] {
          assert r[i] == rest[i - 1];
        }
      } else {
        assert r == [[s[0]] + rest[0]] + rest[1..];
        forall i | 0 < i < |r| ensures sep !in r[i] {
          assert r[i] == rest[i];
        }
      }
    }
  }

  /** Dropping trailing empty pieces keeps a prefix. */
  lemma {:induction false} DropTrailingEmptyPrefix(parts: seq<string>)
    ensures |DropTrailingEmpty(parts)| <= |parts|
    ensures DropTrailingEmpty(parts) == parts[..|DropTrailingEmpty(parts)|]
    decreases |parts|
  {
    if |parts| > 0 && parts[|parts| - 1] == "" {
      var init := parts[..|parts| - 1];
      DropTrailingEmptyPrefix(init);
      assert init[..|DropTrailingEmpty(init)|] == parts[..|DropTrailingEmpty(init)|];
    }
  }

  lemma {:induction false} SplitAllNoSep(s: string, sep: char)
    requires sep !in s
    ensures SplitAll(s, sep) == [s]
    decreases |s|
  {
    if |s| > 0 {
      assert sep !in s[1..];
      SplitAllNoSep(s[1..], sep);
      assert [s[0]] + s[1..] == s;
    }
  }

  lemma {:induction false} SplitAllAt(a: string, sep: char, b: string)
    requires sep !in a
    ensures SplitAll(a + [sep] + b, sep) == [a] + SplitAll(b, sep)
    decreases |a|
  {
    if |a| == 0 {
      assert a + [sep] + b == [sep] + b;
      assert ([sep] + b)[1..] == b;
    } else {
      var s := a + [sep] + b;
      assert s[0] == a[0];
      assert s[1..] == a[1..] + [sep] + b;
      assert sep !in a[1..];
      SplitAllAt(a[1..], sep, b);
      assert [a[0]] + a[1..] == a;
    }
  }

  /** Splitting `a + sep + b` where neither part holds the separator and `b` is not empty. */
  lemma SplitPair(a: string, sep: char, b: string)
    requires sep !in a && sep !in b && b != ""
    ensures JavaSplit(a + [sep] + b, sep) == [a, b]
  {
    var s := a + [sep] + b;
    assert s[|a|] == sep;
    SplitAllAt(a, sep, b);
    SplitAllNoSep(b, sep);
    assert SplitAll(s, sep) == [a, b];
  }

  /** Position of the first `c` in `s`, or `|s|` when there is none. */
  function IndexOf(s: string, c: char): (k: nat)
    ensures k <= |s|
  {
    if |s| == 0 then 0 else if s[0] == c then 0 else 1 + IndexOf(s[1..], c)
  }

  /** Position of the last `c` in `s`, or `-1` when there is none. */
  function LastIndexOf(s: string, c: char): (k: int)
    ensures -1 <= k < |s|
  {
    if |s| == 0 then -1 else if s[|s| - 1] == c then |s| - 1 else LastIndexOf(s[..|s| - 1], c)
  }

  lemma {:induction false} IndexOfJoin(a: string, sep: char, b: string)
    requires sep !in a
    ensures IndexOf(a + [sep] + b, sep) == |a|
    decreases |a|
  {
    var s := a + [sep] + b;
    if |a| > 0 {
      assert s[0] == a[0];
      assert s[1..] == a[1..] + [sep] + b;
      assert sep !in a[1..];
      IndexOfJoin(a[1..], sep, b);
    } else {
      assert s[0] == sep;
    }
  }

  lemma {:induction false} LastIndexOfJoin(a: string, sep: char, b: string)
    requires sep !in b
    ensures LastIndexOf(a + [sep] + b, sep) == |a|
    decreases |b|
  {
    var s := a + [sep] + b;
    if |b| > 0 {
      assert s[|s| - 1] == b[|b| - 1];
      assert s[..|s| - 1] == a + [sep] + b[..|b| - 1];
      assert sep !in b[..|b| - 1];
      LastIndexOfJoin(a, sep, b[..|b| - 1]);
    } else {
      assert s[|s| - 1] == sep;
    }
  }

  /** Two joins on a separator absent from both left parts agree only if both parts agree. */
  lemma JoinInjectiveLeft(a1: string, b1: string, a2: string, b2: string, sep: char)
    requires sep !in a1 && sep !in a2
    requires a1 + [sep] + b1 == a2 + [sep] + b2
    ensures a1 == a2 && b1 == b2
  {
    var s := a1 + [sep] + b1;
    IndexOfJoin(a1, sep, b1);
    IndexOfJoin(a2, sep, b2);
    assert a1 == s[..|a1|] && b1 == s[|a1| + 1..];
    assert a2 == s[..|a2|] && b2 == s[|a2| + 1..];
  }

  /** The mirror image: a separator absent from both right parts. */
  lemma JoinInjectiveRight(a1: string, b1: string, a2: string, b2: string, sep: char)
    requires sep !in b1 && sep !in b2
    requires a1 + [sep] + b1 == a2 + [sep] + b2
    ensures a1 == a2 && b1 == b2
  {
    var s := a1 + [sep] + b1;
    LastIndexOfJoin(a1, sep, b1);
    LastIndexOfJoin(a2, sep, b2);
    assert a1 == s[..|a1|] && b1 == s[|a1| + 1..];
    assert a2 == s[..|a2|] && b2 == s[|a2| + 1..];
  }
}

=== FILE: name_utils.dfy ===
/**
 * The naming scheme both sides agree on: service key `interface_version`, method signature
 * `name(arity)`, registry key `service:signature` and endpoint address `host:port`.
 */
module NameUtils {
  import opened JavaText
  import opened Dto

  /** `interfaceName + "_" + version`: the interface's class name, `_`, then the version. */
  function BuildServiceName(interfaceName: string, version: string): (r: string)
    ensures |r| == |interfaceName| + 1 + |version|
    ensures r[|interfaceName|] == '_'
  {
    interfaceName + "_" + version
  }

  /** The service key is the interface name, one `_`, then the version, in that order. */
  lemma ServiceNameLayout(interfaceName: string, version: string)
    ensures var r := BuildServiceName(interfaceName, version);
            r[..|interfaceName|] == interfaceName && r[|interfaceName|] == '_' && r[|interfaceName| + 1..] == version
  {
    var r := BuildServiceName(interfaceName, version);
    assert r == interfaceName + ['_'] + version;
  }

  /**
   * `name + "(" + parameterCount + ")"`: the method's name, then its arity in decimal between
   * parentheses; the parameter types themselves leave no trace.
   */
  function BuildMethodName(m: MethodDesc): (r: string)
    ensures |r| == |m.name| + 2 + |Decimal(m.ParameterCount())|
  {
    m.name + "(" + Decimal(m.ParameterCount()) + ")"
  }

  /** The signature is the name, `(`, the arity in decimal and `)`, in that order. */
  lemma MethodNameLayout(m: MethodDesc)
    ensures var r := BuildMethodName(m);
            r[..|m.name|] == m.name && r[|m.name|] == '('
            && r[|m.name| + 1..|r| - 1] == Decimal(m.ParameterCount()) && r[|r| - 1] == ')'
  {
    var r := BuildMethodName(m);
    assert r == m.name + ['('] + Decimal(m.ParameterCount()) + [')'];
  }

  /** `serviceName + ":" + methodName`: the registry key of one method of one service. */
  function BuildServiceMethodName(serviceName: string, methodName: string): (r: string)
    ensures |r| == |serviceName| + 1 + |methodName|
    ensures r[|serviceName|] == ':'
  {
    serviceName + ":" + methodName
  }

  /** The registry key reads the service key, one `:`, then the signature. */
  lemma ServiceMethodNameLayout(serviceName: string, methodName: string)
    ensures var r := BuildServiceMethodName(serviceName, methodName);
            r[..|serviceName|] == serviceName && r[|serviceName|] == ':' && r[|serviceName| + 1..] == methodName
  {
    var r := BuildServiceMethodName(serviceName, methodName);
    assert r == serviceName + [':'] + methodName;
  }

  /**
   * `address + ":" + port` with a non-null `Integer` port: the host, `:`, then the port in
   * decimal, which holds no further `:`.
   */
  function BuildAddressName(address: string, port: int): (r: string)
    requires IsJavaInt(port)
    ensures |r| == |address| + 1 + |Decimal(port)|
    ensures r[..|address|] == address && r[|address|] == ':' && r[|address| + 1..] == Decimal(port)
    ensures ':' !in r[|address| + 1..]
  {
    DecimalHasNoSeparator(port, ':');
    address + ":" + Decimal(port)
  }

  /**
   * A service key determines interface and version as long as versions hold no `_`
   * (interface names may: Java class names can contain underscores).
   */
  lemma ServiceNameInjective(i1: string, v1: string, i2: string, v2: string)
    requires '_' !in v1 && '_' !in v2
    ensures BuildServiceName(i1, v1) == BuildServiceName(i2, v2) <==> i1 == i2 && v1 == v2
  {
    if BuildServiceName(i1, v1) == BuildServiceName(i2, v2) {
      JoinInjectiveRight(i1, v1, i2, v2, '_');
    }
  }

  /** Without that restriction two different interface/version pairs can share a key. */
  lemma ServiceNameAmbiguous()
    ensures BuildServiceName("a_b", "c") == BuildServiceName("a", "b_c")
  {
  }

  lemma NatDecimalInjective(a: nat, b: nat)
    requires Decimal(a) == Decimal(b)
    ensures a == b
  {
    NatDigitsInjective(a, b);
  }

  /**
   * The signature keeps only the name and the parameter count: for method names without `(`
   * (every Java identifier) two methods share a signature exactly when they agree on both,
   * whatever their parameter types.
   */
  lemma MethodNameCharacterization(m1: MethodDesc, m2: MethodDesc)
    requires '(' !in m1.name && '(' !in m2.name
    ensures BuildMethodName(m1) == BuildMethodName(m2)
            <==> m1.name == m2.name && m1.ParameterCount() == m2.ParameterCount()
  {
    var d1 := Decimal(m1.ParameterCount());
    var d2 := Decimal(m2.ParameterCount());
    if BuildMethodName(m1) == BuildMethodName(m2) {
      assert BuildMethodName(m1) == m1.name + ['('] + (d1 + [')']);
      assert BuildMethodName(m2) == m2.name + ['('] + (d2 + [')']);
      JoinInjectiveLeft(m1.name, d1 + [')'], m2.name, d2 + [')'], '(');
      assert d1 == (d1 + [')'])[..|d1|] == (d2 + [')'])[..|d2|] == d2;
      NatDecimalInjective(m1.ParameterCount(), m2.ParameterCount());
    }
  }

  /** Overloads with the same name and parameter count collide even when the types differ. */
  lemma OverloadsCollide()
    ensures BuildMethodName(MethodDesc("add", ["int"])) == BuildMethodName(MethodDesc("add", ["java.lang.String"]))
  {
  }

  /** A method signature contains a `:` only if the method name does. */
  lemma MethodNameHasNoColon(m: MethodDesc)
    requires ':' !in m.name
    ensures ':' !in BuildMethodName(m)
  {
    NatDigitsHaveNoSeparator(m.ParameterCount(), ':');
  }

  /**
   * A registry key determines the service key and the signature: signatures of methods
   * whose names hold no `:` are split off at the last `:`.
   */
  lemma ServiceMethodNameInjective(s1: string, m1: MethodDesc, s2: string, m2: MethodDesc)
    requires ':' !in m1.name && ':' !in m2.name
    ensures BuildServiceMethodName(s1, BuildMethodName(m1)) == BuildServiceMethodName(s2, BuildMethodName(m2))
            <==> s1 == s2 && BuildMethodName(m1) == BuildMethodName(m2)
  {
    MethodNameHasNoColon(m1);
    MethodNameHasNoColon(m2);
    if BuildServiceMethodName(s1, BuildMethodName(m1)) == BuildServiceMethodName(s2, BuildMethodName(m2)) {
      JoinInjectiveRight(s1, BuildMethodName(m1), s2, BuildMethodName(m2), ':');
    }
  }
}

=== FILE: netty_client.dfy ===
/**
 * `RpcNettyClient`: one connection to one provider address. It holds the correlation table
 * (`callbackMap`, request id to pending callback), guards sends on the connection state, and
 * reconnects forever after failures.
 *
 * The blocking wait of a caller is abstracted: a send is given the responses the I/O thread
 * reads while the caller waits, and an optional exception raised by the write or the wait.
 */
module NettyClient {
  import opened Wrappers
  import opened Dto
  import opened JavaText
  import opened NameUtils

  /** A pending `RpcCallback`, created for one request id. */
  datatype Callback = Callback(requestId: string)

  type CallbackMap = map<string, Callback>

  /** The handler's `channel` field: null until `channelActive`, then a channel that may be inactive. */
  datatype ChannelRef = NoChannel | Channel(active: bool)

  /** `RpcClientHandler`: the channel it writes to and its correlation table. */
  datatype Handler = Handler(channel: ChannelRef, callbackMap: CallbackMap)

  /** What `initChannel` installs for every new channel. */
  const FRESH_HANDLER: Handler := Handler(NoChannel, map[])

  // ---------------------------------------------------------------------------------------
  // Correlation table
  // ---------------------------------------------------------------------------------------

  /**
   * `channelRead`: a response whose id is registered removes that entry and hands its
   * `result` to the waiting callback; any other response changes nothing.
   */
  function ChannelRead(m: CallbackMap, response: Response): (r: (CallbackMap, Option<Value>))
    ensures r.0.Keys == m.Keys - {response.requestId}
    ensures forall k :: k in r.0 ==> r.0[k] == m[k]
    ensures r.1.Some? <==> response.requestId in m
    ensures r.1.Some? ==> r.1.value == response.result
  {
    var id := response.requestId;
    if id in m then (map k | k in m && k != id :: m[k], Some(response.result))
    else (m, None)
  }

  /** Only the id and the result matter: `hasError` and `throwable` are never looked at. */
  lemma ChannelReadIgnoresErrorFields(m: CallbackMap, r1: Response, r2: Response)
    requires r1.requestId == r2.requestId && r1.result == r2.result
    ensures ChannelRead(m, r1) == ChannelRead(m, r2)
  {
  }

  /** A second response for an id that was just resolved is dropped. */
  lemma DuplicateResponseIsNoOp(m: CallbackMap, first: Response, again: Response)
    requires again.requestId == first.requestId
    ensures ChannelRead(ChannelRead(m, first).0, again) == (ChannelRead(m, first).0, None)
  {
  }

  /** A delivery made by `channelRead`: the id it resolved and the result it handed over. */
  datatype Delivery = Delivery(requestId: string, result: Value)

  /** The I/O thread reading `inbound` in order. */
  function ReadAll(m: CallbackMap, inbound: seq<Response>): (r: (CallbackMap, seq<Delivery>))
    ensures r.0.Keys <= m.Keys
    ensures forall k :: k in r.0 ==> r.0[k] == m[k]
    ensures forall d :: d in r.1 ==> d.requestId in m && d.requestId !in r.0
    decreases |inbound|
  {
    if |inbound| == 0 then (m, [])
    else
      var (m1, got) := ChannelRead(m, inbound[0]);
      var (m2, more) := ReadAll(m1, inbound[1..]);
      var here := if got.Some? then [Delivery(inbound[0].requestId, got.value)] else [];
      (m2, here + more)
  }

  predicate Answers(inbound: seq<Response>, id: string) {
    exists i :: 0 <= i < |inbound| && inbound[i].requestId == id
  }

  /** The result carried by the first response with this id. */
  function FirstAnswer(inbound: seq<Response>, id: string): Value
    requires Answers(inbound, id)
  {
    if inbound[0].requestId == id then inbound[0].result else FirstAnswer(inbound[1..], id)
  }

  /** The result delivered for `id`, if any delivery carries it. */
  function DeliveredTo(ds: seq<Delivery>, id: string): Option<Value> {
    if |ds| == 0 then None else if ds[0].requestId == id then Some(ds[0].result) else DeliveredTo(ds[1..], id)
  }

  lemma DeliveredToAfterOther(d: seq<Delivery>, more: seq<Delivery>, id: string)
    requires |d| <= 1 && (|d| == 1 ==> d[0].requestId != id)
    ensures DeliveredTo(d + more, id) == DeliveredTo(more, id)
  {
    if |d| == 1 {
      assert (d + more)[1..] == more;
    } else {
      assert d + more == more;
    }
  }

  /**
   * For a registered id, reading the inbound responses removes its entry exactly when some
   * response carries that id, and the caller receives the result of the first such response;
   * other registered ids are removed exactly when answered too.
   */
  lemma {:induction false} ReadAllResolves(m: CallbackMap, inbound: seq<Response>, id: string)
    requires id in m
    ensures var (m', ds) := ReadAll(m, inbound);
            && (id in m' <==> !Answers(inbound, id))
            && (Answers(inbound, id) ==> DeliveredTo(ds, id) == Some(FirstAnswer(inbound, id)))
            && (!Answers(inbound, id) ==> DeliveredTo(ds, id) == None)
    decreases |inbound|
  {
    if |inbound| > 0 {
      var (m1, got) := ChannelRead(m, inbound[0]);
      var (m2, more) := ReadAll(m1, inbound[1..]);
      var here := if got.Some? then [Delivery(inbound[0].requestId, got.value)] else [];
      assert ReadAll(m, inbound) == (m2, here + more);
      if inbound[0].requestId == id {
        NeverResolvedAgain(m1, inbound[1..], id);
        assert (here + more)[0] == Delivery(id, inbound[0].result);
      } else {
        DeliveredToAfterOther(here, more, id);
        ReadAllResolves(m1, inbound[1..], id);
        if Answers(inbound[1..], id) {
          var i :| 0 <= i < |inbound[1..]| && inbound[1..][i].requestId == id;
          assert inbound[i + 1].requestId == id;
        }
        if Answers(inbound, id) {
          var i :| 0 <= i < |inbound| && inbound[i].requestId == id;
          assert i > 0 && inbound[1..][i - 1].requestId == id;
        }
      }
    }
  }

  /** Once an id is out of the table, no later response can deliver to it. */
  lemma {:induction false} NeverResolvedAgain(m: CallbackMap, inbound: seq<Response>, id: string)
    requires id !in m
    ensures id !in ReadAll(m, inbound).0
    ensures DeliveredTo(ReadAll(m, inbound).1, id) == None
    decreases |inbound|
  {
    if |inbound| > 0 {
      var (m1, got) := ChannelRead(m, inbound[0]);
      var (m2, more) := ReadAll(m1, inbound[1..]);
      var here := if got.Some? then [Delivery(inbound[0].requestId, got.value)] else [];
      assert ReadAll(m, inbound) == (m2, here + more);
      DeliveredToAfterOther(here, more, id);
      NeverResolvedAgain(m1, inbound[1..], id);
    }
  }

  /** Responses whose ids are pairwise distinct. */
  predicate DistinctIds(inbound: seq<Response>) {
    forall i, j :: 0 <= i < j < |inbound| ==> inbound[i].requestId != inbound[j].requestId
  }

  /** Each response handed to the caller of its own id, in arrival order. */
  function OwnDeliveries(inbound: seq<Response>): (r: seq<Delivery>)
    ensures |r| == |inbound|
    decreases |inbound|
  {
    if |inbound| == 0 then [] else [Delivery(inbound[0].requestId, inbound[0].result)] + OwnDeliveries(inbound[1..])
  }

  lemma DistinctIdsTail(m: CallbackMap, inbound: seq<Response>)
    requires |inbound| > 0 && DistinctIds(inbound)
    requires forall r :: r in inbound ==> r.requestId in m
    ensures DistinctIds(inbound[1..])
    ensures forall r :: r in inbound[1..] ==> r.requestId in ChannelRead(m, inbound[0]).0
  {
    var rest := inbound[1..];
    forall r | r in rest
      ensures r.requestId in ChannelRead(m, inbound[0]).0
    {
      var k :| 0 <= k < |rest| && rest[k] == r;
      assert inbound[k + 1] == r;
    }
    forall i, j | 0 <= i < j < |rest|
      ensures rest[i].requestId != rest[j].requestId
    {
      assert rest[i] == inbound[i + 1] && rest[j] == inbound[j + 1];
    }
  }

  lemma IdsCons(inbound: seq<Response>)
    requires |inbound| > 0
    ensures (set r | r in inbound :: r.requestId) == {inbound[0].requestId} + (set r | r in inbound[1..] :: r.requestId)
  {
    assert inbound == [inbound[0]] + inbound[1..];
  }

  /**
   * Many calls outstanding on one connection: when every response answers a distinct registered
   * id, in any order, each caller receives the result of its own response.
   */
  lemma {:induction false} ReadAllDistinct(m: CallbackMap, inbound: seq<Response>)
    requires forall r :: r in inbound ==> r.requestId in m
    requires DistinctIds(inbound)
    ensures ReadAll(m, inbound).1 == OwnDeliveries(inbound)
    decreases |inbound|
  {
    if |inbound| > 0 {
      DistinctIdsTail(m, inbound);
      ReadAllDistinct(ChannelRead(m, inbound[0]).0, inbound[1..]);
    }
  }

  /** ... and every answered entry leaves the table while all others stay. */
  lemma {:induction false} ReadAllDistinctClears(m: CallbackMap, inbound: seq<Response>)
    requires forall r :: r in inbound ==> r.requestId in m
    requires DistinctIds(inbound)
    ensures ReadAll(m, inbound).0.Keys == m.Keys - (set r | r in inbound :: r.requestId)
    decreases |inbound|
  {
    if |inbound| > 0 {
      var rest := inbound[1..];
      var m1 := ChannelRead(m, inbound[0]).0;
      DistinctIdsTail(m, inbound);
      ReadAllDistinctClears(m1, rest);
      assert ReadAll(m, inbound).0 == ReadAll(m1, rest).0;
      IdsCons(inbound);
    }
  }

  // ---------------------------------------------------------------------------------------
  // Sending
  // ---------------------------------------------------------------------------------------

  /**
   * `RpcClientHandler.sendRpcRequest`: refuse on an inactive channel, otherwise register a
   * callback under the request id, write the request and wait. The wait yields the result the
   * callback received, or null when none arrived. If the write or the wait throws, the entry
   * for that id is removed and the exception propagates.
   */
  function HandlerSend(address: string, h: Handler, request: Request, inbound: seq<Response>,
                       fault: Option<Exception>): (r: (Handler, CallOutcome))
    ensures h.channel == NoChannel ==> r == (h, Thrown(Exception(NullPointerException, None)))
    ensures h.channel == Channel(false) ==>
              r == (h, Thrown(Exception(RpcConnectException, Some(address + " is unable to connect"))))
    ensures h.channel == Channel(true) ==> r.0.channel == h.channel
    ensures h.channel == Channel(true) && fault.Some? ==>
              r.1 == Thrown(fault.value) && request.requestId !in r.0.callbackMap
    ensures h.channel == Channel(true) && fault.None? ==>
              (request.requestId in r.0.callbackMap <==> !Answers(inbound, request.requestId))
    ensures h.channel == Channel(true) && fault.None? && Answers(inbound, request.requestId) ==>
              r.1 == Returned(FirstAnswer(inbound, request.requestId))
    ensures h.channel == Channel(true) && fault.None? && !Answers(inbound, request.requestId) ==>
              r.1 == Returned(Null)
  {
    match h.channel
    case NoChannel => (h, Thrown(Exception(NullPointerException, None)))
    case Channel(active) =>
      if !active then (h, Thrown(Exception(RpcConnectException, Some(address + " is unable to connect"))))
      else
        var id := request.requestId;
        var registered := h.callbackMap[id := Callback(id)];
        var (afterReads, deliveries) := ReadAll(registered, inbound);
        ReadAllResolves(registered, inbound, id);
        var waited := DeliveredTo(deliveries, id);
        match fault
        case Some(e) => (h.(callbackMap := afterReads - {id}), Thrown(e))
        case None => (h.(callbackMap := afterReads), Returned(waited.GetOr(Null)))
  }

  /**
   * Entries of other calls are touched only by responses to them: an entry other than the
   * request's own survives the send exactly when no inbound response carries its id.
   */
  lemma HandlerSendKeepsOthers(address: string, h: Handler, request: Request, inbound: seq<Response>,
                               fault: Option<Exception>, k: string)
    requires h.channel == Channel(true)
    requires k != request.requestId && k in h.callbackMap
    ensures var h' := HandlerSend(address, h, request, inbound, fault).0;
            (k in h'.callbackMap <==> !Answers(inbound, k))
            && (k in h'.callbackMap ==> h'.callbackMap[k] == h.callbackMap[k])
  {
    var registered := h.callbackMap[request.requestId := Callback(request.requestId)];
    ReadAllResolves(registered, inbound, k);
  }

  /** The lifecycle of the future returned by `bootstrap.connect`. */
  datatype FutureState = Pending | Succeeded | Failed

  /**
   * `RpcNettyClient`: its address, the latest connect future, the latest handler (none before
   * the first channel is initialised), a scheduled reconnect, and whether it was shut down.
   */
  datatype Client = Client(serviceAddress: string, future: FutureState, handler: Option<Handler>,
                           retryDelayMs: Option<nat>, shutDown: bool)

  /**
   * `RpcNettyClient.sendRpcRequest`: a connect future that has not succeeded raises
   * RpcConnectException, a missing handler raises NullPointerException, both leaving the
   * client as it was; otherwise the handler sends.
   */
  function SendRpcRequest(c: Client, request: Request, inbound: seq<Response>, fault: Option<Exception>)
    : (r: (Client, CallOutcome))
    ensures c.future != Succeeded ==>
              r == (c, Thrown(Exception(RpcConnectException, Some(c.serviceAddress + " is cann't connect"))))
    ensures c.future == Succeeded && c.handler.None? ==>
              r == (c, Thrown(Exception(NullPointerException, Some(c.serviceAddress + " is cann't connect"))))
    ensures r.1.Returned? ==> c.future == Succeeded && c.handler.Some? && c.handler.value.channel == Channel(true)
    ensures r.0.future == c.future && r.0.serviceAddress == c.serviceAddress
  {
    if c.future != Succeeded then
      (c, Thrown(Exception(RpcConnectException, Some(c.serviceAddress + " is cann't connect"))))
    else if c.handler.None? then
      (c, Thrown(Exception(NullPointerException, Some(c.serviceAddress + " is cann't connect"))))
    else
      var (h, outcome) := HandlerSend(c.serviceAddress, c.handler.value, request, inbound, fault);
      (c.(handler := Some(h)), outcome)
  }

  // ---------------------------------------------------------------------------------------
  // Connecting
  // ---------------------------------------------------------------------------------------

  /** The largest TCP port: `InetSocketAddress` refuses a port outside 0..65535. */
  const MAX_PORT: int := 0xFFFF

  predicate IsPort(n: int) {
    0 <= n <= MAX_PORT
  }

  /**
   * `doConnect` up to the connect call: split at `:`, then connect to element 0 on the port
   * parsed from element 1. A missing element 1 raises ArrayIndexOutOfBoundsException and a
   * malformed port NumberFormatException; `bootstrap.connect(host, port)` builds an unresolved
   * `InetSocketAddress`, which raises IllegalArgumentException for a port outside 0..65535.
   */
  function ConnectTarget(serviceAddress: string): (r: Result<(string, int), Exception>)
    ensures r.Success? ==> IsPort(r.value.1) && ':' !in r.value.0
    ensures r.Failure? ==>
              r.error.kind in {ArrayIndexOutOfBoundsException, NumberFormatException, IllegalArgumentException}
  {
    var parts := JavaSplit(serviceAddress, ':');
    JavaSplitPieces(serviceAddress, ':');
    if |parts| < 2 then Failure(Exception(ArrayIndexOutOfBoundsException, None))
    else match ParseInt(parts[1])
      case None => Failure(Exception(NumberFormatException, None))
      case Some(port) =>
        if IsPort(port) then Success((parts[0], port))
        else Failure(Exception(IllegalArgumentException, Some("port out of range:" + Decimal(port))))
  }

  /**
   * The address a provider registers parses back to its host and port when the port is a TCP
   * port, and is refused by the connect call otherwise.
   */
  lemma ConnectTargetOfAddressName(host: string, port: int)
    requires ':' !in host
    requires IsJavaInt(port)
    ensures ConnectTarget(BuildAddressName(host, port))
            == if IsPort(port) then Success((host, port))
               else Failure(Exception(IllegalArgumentException, Some("port out of range:" + Decimal(port))))
  {
    DecimalHasNoSeparator(port, ':');
    SplitPair(host, ':', Decimal(port));
    ParseDecimal(port);
  }

  /**
   * A host holding `:`, such as the IPv6 literal `getHostAddress` returns on an IPv6 host, is
   * cut at its first colon: whatever `doConnect` makes of `host:port`, it is not that host.
   */
  lemma ColonHostMisparsed(host: string, port: int)
    requires ':' in host
    requires IsJavaInt(port)
    ensures ConnectTarget(BuildAddressName(host, port)) != Success((host, port))
  {
  }

  /** The IPv6 link-local host `fe80::1` leaves element 1 empty, so every consumer fails to parse it. */
  lemma Ipv6HostRefused()
    ensures ConnectTarget(BuildAddressName("fe80::1", 8090)) == Failure(Exception(NumberFormatException, None))
  {
    var d := Decimal(8090);
    DecimalHasNoSeparator(8090, ':');
    assert BuildAddressName("fe80::1", 8090) == "fe80" + "::" + "1" + ":" + d;
    CompressedHostSplit("fe80", "1", d);
  }

  /** An address `a::b:d` splits into `a`, an empty piece, `b` and `d`. */
  lemma CompressedHostSplit(a: string, b: string, d: string)
    requires ':' !in a && ':' !in b && ':' !in d && d != ""
    ensures JavaSplit(a + "::" + b + ":" + d, ':') == [a, "", b, d]
  {
    var tail := b + [':'] + d;
    assert SplitAll(tail, ':') == [b, d] by {
      SplitAllAt(b, ':', d);
      SplitAllNoSep(d, ':');
    }
    var middle := "" + [':'] + tail;
    assert SplitAll(middle, ':') == ["", b, d] by {
      SplitAllAt("", ':', tail);
    }
    var s := a + "::" + b + ":" + d;
    assert s == a + [':'] + middle;
    assert SplitAll(s, ':') == [a, "", b, d] by {
      SplitAllAt(a, ':', middle);
    }
    assert s[|a|] == ':';
  }

  /** The fixed reconnect delay after a failed connect. */
  const RECONNECT_DELAY_MS: nat := 1000

  /**
   * `doConnect` on a parsed address: a new pending future, whose channel will get a new handler
   * with an empty correlation table. Nothing scheduled survives it.
   */
  function DoConnect(c: Client): (r: Client)
    ensures Valid(r) && !Connected(r)
    ensures r.handler == Some(FRESH_HANDLER)
    ensures r.serviceAddress == c.serviceAddress && r.shutDown == c.shutDown
  {
    c.(future := Pending, handler := Some(FRESH_HANDLER), retryDelayMs := None)
  }

  /**
   * `new RpcNettyClient(address).init()`: the first `doConnect`, which throws what the address
   * parsing and the connect call throw.
   */
  function NewClient(serviceAddress: string): (r: Result<Client, Exception>)
    ensures r.Success? <==> ConnectTarget(serviceAddress).Success?
    ensures r.Failure? ==> r.error == ConnectTarget(serviceAddress).error
    ensures r.Success? ==> r.value.serviceAddress == serviceAddress && Valid(r.value) && !r.value.shutDown
  {
    match ConnectTarget(serviceAddress)
    case Failure(e) => Failure(e)
    case Success(_) => Success(DoConnect(Client(serviceAddress, Pending, None, None, false)))
  }

  /**
   * A client for a registered `host:port` name comes up exactly when the port is a TCP port;
   * otherwise `init` throws IllegalArgumentException.
   */
  lemma NewClientOfAddressName(host: string, port: int)
    requires ':' !in host
    requires IsJavaInt(port)
    ensures NewClient(BuildAddressName(host, port)).Success? <==> IsPort(port)
    ensures !IsPort(port) ==>
              NewClient(BuildAddressName(host, port))
              == Failure(Exception(IllegalArgumentException, Some("port out of range:" + Decimal(port))))
  {
    ConnectTargetOfAddressName(host, port);
  }

  /** What can happen to a client. */
  datatype ConnEvent =
    | ConnectSucceeded   // the future completes successfully and the channel becomes active
    | ConnectFailed      // the future completes with a failure
    | RetryTimerFired    // the reconnect scheduled after a failure runs
    | ChannelInactive    // the connected channel goes inactive
    | DisConnect         // `disConnect` shuts the event loop down

  /**
   * One event. `disConnect` shuts the event loop down, which closes the channel; a shut-down
   * client ignores every later event.
   */
  function Step(c: Client, e: ConnEvent): (r: Client)
    ensures r.serviceAddress == c.serviceAddress
    ensures c.shutDown ==> r == c
    ensures Valid(c) ==> Valid(r)
  {
    if c.shutDown then c
    else match e
      case ConnectSucceeded =>
        if c.future == Pending && c.handler.Some? then
          c.(future := Succeeded, handler := Some(c.handler.value.(channel := Channel(true))))
        else c
      case ConnectFailed =>
        if c.future == Pending then c.(future := Failed, retryDelayMs := Some(RECONNECT_DELAY_MS)) else c
      case RetryTimerFired =>
        if c.retryDelayMs.Some? then DoConnect(c) else c
      case ChannelInactive =>
        if c.future == Succeeded then DoConnect(c) else c
      case DisConnect => c.(shutDown := true, retryDelayMs := None, handler := Closed(c.handler))
  }

  /** The handler after its channel was closed: an open channel becomes inactive. */
  function Closed(handler: Option<Handler>): (r: Option<Handler>)
    ensures r.Some? <==> handler.Some?
    ensures r.Some? ==> r.value.channel != Channel(true) && r.value.callbackMap == handler.value.callbackMap
  {
    match handler
    case None => None
    case Some(h) => if h.channel == NoChannel then handler else Some(h.(channel := Channel(false)))
  }

  /** A sequence of events, in order: it keeps the client consistent, and a shut-down client stays as it is. */
  function Run(c: Client, events: seq<ConnEvent>): (r: Client)
    ensures r.serviceAddress == c.serviceAddress
    ensures c.shutDown ==> r == c
    ensures Valid(c) ==> Valid(r)
    decreases |events|
  {
    if |events| == 0 then c else Run(Step(c, events[0]), events[1..])
  }

  /** A client that can carry calls: its future succeeded and its handler's channel is active. */
  predicate Connected(c: Client) {
    c.future == Succeeded && c.handler.Some? && c.handler.value.channel == Channel(true)
  }

  /**
   * The states a client passes through: a pending future has a handler, a failed one always has
   * a reconnect scheduled, and a succeeded one has an active channel.
   */
  predicate Valid(c: Client) {
    && c.handler.Some?
    && (!c.shutDown && c.future == Succeeded ==> c.handler.value.channel == Channel(true))
    && (!c.shutDown && c.future == Failed ==> c.retryDelayMs == Some(RECONNECT_DELAY_MS))
    && (c.future != Failed ==> c.retryDelayMs.None?)
  }

  lemma StepPreservesValid(c: Client, e: ConnEvent)
    requires Valid(c)
    ensures Valid(Step(c, e))
  {
  }

  /** A failed connect always schedules another attempt after the fixed delay. */
  lemma FailureSchedulesRetry(c: Client)
    requires !c.shutDown && c.future == Pending
    ensures Step(c, ConnectFailed).retryDelayMs == Some(RECONNECT_DELAY_MS)
    ensures Step(Step(c, ConnectFailed), RetryTimerFired).future == Pending
  {
  }

  /** Events that bring a valid, live client back to a usable connection. */
  function RecoveryEvents(c: Client): seq<ConnEvent> {
    match c.future
    case Succeeded => []
    case Pending => [ConnectSucceeded]
    case Failed => [RetryTimerFired, ConnectSucceeded]
  }

  /**
   * There is no terminal failed state: from every state a live client can reach, some run of
   * events ends connected.
   */
  lemma NoTerminalFailure(c: Client)
    requires Valid(c) && !c.shutDown
    ensures Connected(Run(c, RecoveryEvents(c)))
  {
    var evs := RecoveryEvents(c);
    if c.future == Failed {
      var c1 := Step(c, RetryTimerFired);
      assert c1.future == Pending && c1.handler.Some?;
      assert Run(c, evs) == Run(c1, [ConnectSucceeded]);
    }
  }

  /** Losing the channel forgets the table: the reconnect installs a handler with an empty one. */
  lemma InactiveChannelDropsTable(c: Client)
    requires !c.shutDown && c.future == Succeeded
    ensures Step(c, ChannelInactive).handler == Some(FRESH_HANDLER)
    ensures Step(c, ChannelInactive).future == Pending
  {
  }

  /**
   * A disconnected client refuses every later send, whatever events follow: the closed channel
   * or the unfinished future makes the send throw RpcConnectException, and nothing changes.
   */
  lemma DisconnectedClientRefuses(c: Client, events: seq<ConnEvent>, request: Request, inbound: seq<Response>,
                                  fault: Option<Exception>)
    requires Valid(c) && !c.shutDown
    ensures var c' := Run(Step(c, DisConnect), events);
            var r := SendRpcRequest(c', request, inbound, fault);
            && r.0 == c'
            && r.1.Thrown? && r.1.error.kind == RpcConnectException
  {
    assert Run(Step(c, DisConnect), events) == Step(c, DisConnect);
  }
}

=== FILE: provider_bean.dfy ===
/**
 * `RpcProviderBean`: the provider side. `init` indexes every exposed service by its interface
 * key and every interface method by its registry key, refusing a repeated key; the server
 * handler dispatches each request through the two maps and answers with exactly one response;
 * start-up and shutdown register and cancel the provider's `address:port` under every key.
 */
module ProviderBean {
  import opened Wrappers
  import opened JavaText
  import opened Dto
  import opened NameUtils
  import ConfigBean
  import ConsumerInterceptor
  import NettyClient

  const DEFAULT_VERSION: string := "0.0.1"
  const DEFAULT_PORT: int := 8090

  /** A Java interface as reflection shows it: its class name and its public methods. */
  datatype Interface = Interface(name: string, methods: seq<MethodDesc>)

  /** An exposed service object: its identity and the interfaces its class implements, in order. */
  datatype ServiceImpl = ServiceImpl(id: nat, interfaces: seq<Interface>)

  /** What `serviceMethodMap` holds: a method together with the exposed interface whose `getMethods` listed it. */
  datatype MethodRef = MethodRef(exposedInterface: string, signature: MethodDesc)

  /** `serviceMap` and `serviceMethodMap`. */
  datatype Registry = Registry(services: map<string, ServiceImpl>, methods: map<string, MethodRef>)

  const EMPTY_REGISTRY: Registry := Registry(map[], map[])

  // ---------------------------------------------------------------------------------------
  // Building the registry
  // ---------------------------------------------------------------------------------------

  /** One write `init` performs, in the order the nested loops perform them. */
  datatype Binding =
    | PutService(serviceName: string, service: ServiceImpl)
    | PutMethod(serviceName: string, methodName: string, target: MethodRef)

  /** The registry key a method binding is checked and stored under. */
  function MethodKey(b: Binding): string
    requires b.PutMethod?
  {
    BuildServiceMethodName(b.serviceName, b.methodName)
  }

  /** The method bindings of one interface, in the order `getMethods` lists them. */
  function MethodSteps(serviceName: string, itf: Interface): (r: seq<Binding>)
    ensures |r| == |itf.methods|
    ensures forall i :: 0 <= i < |r| ==>
              r[i] == PutMethod(serviceName, BuildMethodName(itf.methods[i]), MethodRef(itf.name, itf.methods[i]))
  {
    seq(|itf.methods|, i requires 0 <= i < |itf.methods| =>
      PutMethod(serviceName, BuildMethodName(itf.methods[i]), MethodRef(itf.name, itf.methods[i])))
  }

  /** For each interface: bind the service key to the object, then bind each method key. */
  function InterfaceSteps(impl: ServiceImpl, interfaces: seq<Interface>, version: string): seq<Binding>
    decreases |interfaces|
  {
    if |interfaces| == 0 then []
    else
      var serviceName := BuildServiceName(interfaces[0].name, version);
      [PutService(serviceName, impl)] + MethodSteps(serviceName, interfaces[0])
      + InterfaceSteps(impl, interfaces[1..], version)
  }

  /** The bindings of one service object: those of its interfaces, in order. */
  function ServiceSteps(version: string): ServiceImpl -> seq<Binding> {
    (impl: ServiceImpl) => InterfaceSteps(impl, impl.interfaces, version)
  }

  /** `f` of every element, concatenated in order. */
  function Flatten<T, U>(f: T -> seq<U>, xs: seq<T>): seq<U>
    decreases |xs|
  {
    if |xs| == 0 then [] else f(xs[0]) + Flatten(f, xs[1..])
  }

  /** The bindings of the whole service list, service by service. */
  function Steps(serviceList: seq<ServiceImpl>, version: string): seq<Binding> {
    Flatten(ServiceSteps(version), serviceList)
  }

  /** The registry keys of the method bindings, in order, repetitions included. */
  function MethodKeys(steps: seq<Binding>): (r: seq<string>)
    ensures |r| <= |steps|
    decreases |steps|
  {
    if |steps| == 0 then []
    else (if steps[0].PutMethod? then [MethodKey(steps[0])] else []) + MethodKeys(steps[1..])
  }

  /**
   * Perform the bindings in order. A service key is simply overwritten; a method key that is
   * already bound aborts with "<service> have repeat method <method>".
   */
  function Apply(reg: Registry, steps: seq<Binding>): (r: Result<Registry, Exception>)
    ensures r.Failure? ==> r.error.kind == PlainException && r.error.message.Some?
    decreases |steps|
  {
    if |steps| == 0 then Success(reg)
    else match steps[0]
      case PutService(s, impl) => Apply(reg.(services := reg.services[s := impl]), steps[1..])
      case PutMethod(s, m, target) =>
        var key := BuildServiceMethodName(s, m);
        if key in reg.methods then Failure(Exception(PlainException, Some(s + " have repeat method " + m)))
        else Apply(reg.(methods := reg.methods[key := target]), steps[1..])
  }

  /** The registry-building part of `init`. */
  function Init(serviceList: seq<ServiceImpl>, version: string): (r: Result<Registry, Exception>)
    ensures r.Failure? ==> r.error.kind == PlainException && r.error.message.Some?
  {
    Apply(EMPTY_REGISTRY, Steps(serviceList, version))
  }

  /** No key occurs twice among `keys`, and none of them is bound in `bound` already. */
  predicate FreshKeys(keys: seq<string>, bound: map<string, MethodRef>) {
    ConfigBean.NoDuplicates(keys) && forall k :: k in keys ==> k !in bound
  }

  lemma {:induction false} MethodKeysAppend(a: seq<Binding>, b: seq<Binding>)
    ensures MethodKeys(a + b) == MethodKeys(a) + MethodKeys(b)
    decreases |a|
  {
    if |a| > 0 {
      assert (a + b)[0] == a[0];
      assert (a + b)[1..] == a[1..] + b;
      MethodKeysAppend(a[1..], b);
      var here := if a[0].PutMethod? then [MethodKey(a[0])] else [];
      assert MethodKeys(a + b) == here + MethodKeys(a[1..] + b);
      assert MethodKeys(a) == here + MethodKeys(a[1..]);
    } else {
      assert a + b == b;
    }
  }

  /** `init` succeeds exactly when the method keys are pairwise distinct. */
  lemma {:induction false} ApplySucceeds(reg: Registry, steps: seq<Binding>)
    ensures Apply(reg, steps).Success? <==> FreshKeys(MethodKeys(steps), reg.methods)
    decreases |steps|
  {
    if |steps| > 0 {
      var rest := MethodKeys(steps[1..]);
      match steps[0]
      case PutService(s, impl) =>
        ApplySucceeds(reg.(services := reg.services[s := impl]), steps[1..]);
        assert MethodKeys(steps) == rest;
      case PutMethod(s, m, target) =>
        var key := BuildServiceMethodName(s, m);
        assert MethodKeys(steps) == [key] + rest;
        ConfigBean.NoDuplicatesCons(key, rest);
        if key !in reg.methods {
          ApplySucceeds(reg.(methods := reg.methods[key := target]), steps[1..]);
        }
    }
  }

  /**
   * On success every method binding performed is in the map, earlier bindings stay, and no
   * other key is added.
   */
  lemma ApplyBindsMethods(reg: Registry, steps: seq<Binding>)
    requires Apply(reg, steps).Success?
    ensures var r := Apply(reg, steps).value;
            && (forall b :: b in steps && b.PutMethod? ==> MethodKey(b) in r.methods && r.methods[MethodKey(b)] == b.target)
            && (forall k :: k in reg.methods ==> k in r.methods && r.methods[k] == reg.methods[k])
            && (forall k :: k in r.methods ==> k in reg.methods || k in MethodKeys(steps))
  {
    ApplyKeepsMethods(reg, steps);
    ApplyPutsMethods(reg, steps);
  }

  /** Earlier method keys stay bound as they were, and the only keys added are the bindings' keys. */
  lemma {:induction false} ApplyKeepsMethods(reg: Registry, steps: seq<Binding>)
    requires Apply(reg, steps).Success?
    ensures var r := Apply(reg, steps).value;
            && (forall k :: k in reg.methods ==> k in r.methods && r.methods[k] == reg.methods[k])
            && (forall k :: k in r.methods ==> k in reg.methods || k in MethodKeys(steps))
    decreases |steps|
  {
    if |steps| > 0 {
      var rest := steps[1..];
      match steps[0]
      case PutService(s, impl) =>
        ApplyKeepsMethods(reg.(services := reg.services[s := impl]), rest);
        assert MethodKeys(steps) == MethodKeys(rest);
      case PutMethod(s, m, target) =>
        var key := BuildServiceMethodName(s, m);
        assert MethodKeys(steps) == [key] + MethodKeys(rest);
        ApplyKeepsMethods(reg.(methods := reg.methods[key := target]), rest);
    }
  }

  /** Every method binding performed is in the map afterwards, with its own target. */
  lemma {:induction false} ApplyPutsMethods(reg: Registry, steps: seq<Binding>)
    requires Apply(reg, steps).Success?
    ensures var r := Apply(reg, steps).value;
            forall b :: b in steps && b.PutMethod? ==> MethodKey(b) in r.methods && r.methods[MethodKey(b)] == b.target
    decreases |steps|
  {
    if |steps| > 0 {
      var rest := steps[1..];
      assert forall b :: b in steps ==> b == steps[0] || b in rest;
      match steps[0]
      case PutService(s, impl) =>
        ApplyPutsMethods(reg.(services := reg.services[s := impl]), rest);
      case PutMethod(s, m, target) =>
        var next := reg.(methods := reg.methods[BuildServiceMethodName(s, m) := target]);
        ApplyPutsMethods(next, rest);
        ApplyKeepsMethods(next, rest);
    }
  }

  /**
   * On success every service binding performed has its key bound, and every bound service key
   * holds an object one of the bindings put there, or the one it held before.
   */
  lemma {:induction false} ApplyBindsServices(reg: Registry, steps: seq<Binding>)
    requires Apply(reg, steps).Success?
    ensures var r := Apply(reg, steps).value;
            && (forall b :: b in steps && b.PutService? ==> b.serviceName in r.services)
            && (forall s :: s in r.services ==>
                  PutService(s, r.services[s]) in steps || (s in reg.services && r.services[s] == reg.services[s]))
    decreases |steps|
  {
    if |steps| > 0 {
      var rest := steps[1..];
      assert forall b :: b in steps ==> b == steps[0] || b in rest;
      match steps[0]
      case PutService(s, impl) =>
        ApplyBindsServices(reg.(services := reg.services[s := impl]), rest);
        ServiceKeyKept(reg.(services := reg.services[s := impl]), rest, s);
      case PutMethod(s, m, target) =>
        ApplyBindsServices(reg.(methods := reg.methods[BuildServiceMethodName(s, m) := target]), rest);
    }
  }

  /** A service key, once bound, stays bound through later bindings. */
  lemma {:induction false} ServiceKeyKept(reg: Registry, steps: seq<Binding>, s: string)
    requires Apply(reg, steps).Success?
    requires s in reg.services
    ensures s in Apply(reg, steps).value.services
    decreases |steps|
  {
    if |steps| > 0 {
      match steps[0]
      case PutService(s2, impl) => ServiceKeyKept(reg.(services := reg.services[s2 := impl]), steps[1..], s);
      case PutMethod(s2, m, target) =>
        ServiceKeyKept(reg.(methods := reg.methods[BuildServiceMethodName(s2, m) := target]), steps[1..], s);
    }
  }

  /** A failed `init` reports a method binding it met: "<service> have repeat method <method>". */
  lemma {:induction false} ApplyFailureMessage(reg: Registry, steps: seq<Binding>)
    requires Apply(reg, steps).Failure?
    ensures exists b :: b in steps && b.PutMethod? &&
              Apply(reg, steps).error == Exception(PlainException, Some(b.serviceName + " have repeat method " + b.methodName))
    decreases |steps|
  {
    match steps[0]
    case PutService(s, impl) =>
      ApplyFailureMessage(reg.(services := reg.services[s := impl]), steps[1..]);
      var b :| b in steps[1..] && b.PutMethod? &&
               Apply(reg.(services := reg.services[s := impl]), steps[1..]).error
               == Exception(PlainException, Some(b.serviceName + " have repeat method " + b.methodName));
      assert b in steps;
    case PutMethod(s, m, target) =>
      var key := BuildServiceMethodName(s, m);
      if key in reg.methods {
        assert steps[0] in steps;
      } else {
        var reg1 := reg.(methods := reg.methods[key := target]);
        ApplyFailureMessage(reg1, steps[1..]);
        var b :| b in steps[1..] && b.PutMethod? &&
                 Apply(reg1, steps[1..]).error
                 == Exception(PlainException, Some(b.serviceName + " have repeat method " + b.methodName));
        assert b in steps;
      }
  }

  // Where the bindings come from ----------------------------------------------------------

  /** Every interface of a listed service contributes its service binding and its method bindings. */
  lemma {:induction false} StepsCover(serviceList: seq<ServiceImpl>, version: string, impl: ServiceImpl, itf: Interface)
    requires impl in serviceList && itf in impl.interfaces
    ensures var serviceName := BuildServiceName(itf.name, version);
            && PutService(serviceName, impl) in Steps(serviceList, version)
            && (forall b :: b in MethodSteps(serviceName, itf) ==> b in Steps(serviceList, version))
            && multiset(MethodKeys(MethodSteps(serviceName, itf))) <= multiset(MethodKeys(Steps(serviceList, version)))
    decreases |serviceList|
  {
    var head := InterfaceSteps(serviceList[0], serviceList[0].interfaces, version);
    var tail := Steps(serviceList[1..], version);
    MethodKeysAppend(head, tail);
    if serviceList[0] == impl {
      InterfaceStepsCover(impl, impl.interfaces, version, itf);
    } else {
      StepsCover(serviceList[1..], version, impl, itf);
    }
  }

  lemma {:induction false} InterfaceStepsCover(impl: ServiceImpl, interfaces: seq<Interface>, version: string, itf: Interface)
    requires itf in interfaces
    ensures var serviceName := BuildServiceName(itf.name, version);
            && PutService(serviceName, impl) in InterfaceSteps(impl, interfaces, version)
            && (forall b :: b in MethodSteps(serviceName, itf) ==> b in InterfaceSteps(impl, interfaces, version))
            && multiset(MethodKeys(MethodSteps(serviceName, itf)))
               <= multiset(MethodKeys(InterfaceSteps(impl, interfaces, version)))
    decreases |interfaces|
  {
    var serviceName0 := BuildServiceName(interfaces[0].name, version);
    var first := [PutService(serviceName0, impl)] + MethodSteps(serviceName0, interfaces[0]);
    var rest := InterfaceSteps(impl, interfaces[1..], version);
    assert InterfaceSteps(impl, interfaces, version) == first + rest;
    MethodKeysAppend(first, rest);
    MethodKeysAppend([PutService(serviceName0, impl)], MethodSteps(serviceName0, interfaces[0]));
    if interfaces[0] != itf {
      InterfaceStepsCover(impl, interfaces[1..], version, itf);
    }
  }

  /** Every service binding comes from an interface of a listed service. */
  lemma {:induction false} StepsOrigin(serviceList: seq<ServiceImpl>, version: string, b: Binding)
    requires b in Steps(serviceList, version) && b.PutService?
    ensures b.service in serviceList
    ensures exists itf :: itf in b.service.interfaces && b.serviceName == BuildServiceName(itf.name, version)
    decreases |serviceList|
  {
    var head := InterfaceSteps(serviceList[0], serviceList[0].interfaces, version);
    if b in head {
      InterfaceStepsOrigin(serviceList[0], serviceList[0].interfaces, version, b);
    } else {
      StepsOrigin(serviceList[1..], version, b);
    }
  }

  lemma {:induction false} InterfaceStepsOrigin(impl: ServiceImpl, interfaces: seq<Interface>, version: string, b: Binding)
    requires b in InterfaceSteps(impl, interfaces, version) && b.PutService?
    ensures b.service == impl
    ensures exists itf :: itf in interfaces && b.serviceName == BuildServiceName(itf.name, version)
    decreases |interfaces|
  {
    var serviceName0 := BuildServiceName(interfaces[0].name, version);
    if b == PutService(serviceName0, impl) {
      assert interfaces[0] in interfaces;
    } else if b !in MethodSteps(serviceName0, interfaces[0]) {
      InterfaceStepsOrigin(impl, interfaces[1..], version, b);
      var itf :| itf in interfaces[1..] && b.serviceName == BuildServiceName(itf.name, version);
      assert itf in interfaces;
    }
  }

  lemma SuffixCancel(a: string, b: string, s: string)
    requires a + s == b + s
    ensures a == b
  {
    assert a == (a + s)[..|a|];
    assert b == (b + s)[..|b|];
  }

  // Properties of init ---------------------------------------------------------------------

  /** `init` succeeds exactly when no registry key is produced twice. */
  lemma InitSucceeds(serviceList: seq<ServiceImpl>, version: string)
    ensures Init(serviceList, version).Success? <==> ConfigBean.NoDuplicates(MethodKeys(Steps(serviceList, version)))
  {
    ApplySucceeds(EMPTY_REGISTRY, Steps(serviceList, version));
  }

  /** A failed `init` throws a plain Exception reading "<service> have repeat method <method>". */
  lemma InitFailureMessage(serviceList: seq<ServiceImpl>, version: string)
    requires Init(serviceList, version).Failure?
    ensures var e := Init(serviceList, version).error;
            && e.kind == PlainException
            && exists s, m :: e.message == Some(s + " have repeat method " + m)
  {
    ApplyFailureMessage(EMPTY_REGISTRY, Steps(serviceList, version));
    var b :| b in Steps(serviceList, version) && b.PutMethod? &&
             Init(serviceList, version).error
             == Exception(PlainException, Some(b.serviceName + " have repeat method " + b.methodName));
    assert Init(serviceList, version).error.message == Some(b.serviceName + " have repeat method " + b.methodName);
  }

  /**
   * After a successful `init`, every method of every interface of every listed service is bound
   * under `buildServiceMethodName(buildServiceName(interface, version), buildMethodName(m))`, to
   * that method of that interface, and the interface's service key is bound.
   */
  lemma InitBindsMethod(serviceList: seq<ServiceImpl>, version: string, impl: ServiceImpl, itf: Interface, m: MethodDesc)
    requires Init(serviceList, version).Success?
    requires impl in serviceList && itf in impl.interfaces && m in itf.methods
    ensures var r := Init(serviceList, version).value;
            var serviceName := BuildServiceName(itf.name, version);
            var key := BuildServiceMethodName(serviceName, BuildMethodName(m));
            && serviceName in r.services
            && key in r.methods && r.methods[key] == MethodRef(itf.name, m)
  {
    var serviceName := BuildServiceName(itf.name, version);
    StepsCover(serviceList, version, impl, itf);
    ApplyBindsMethods(EMPTY_REGISTRY, Steps(serviceList, version));
    ApplyBindsServices(EMPTY_REGISTRY, Steps(serviceList, version));
    var i :| 0 <= i < |itf.methods| && itf.methods[i] == m;
    assert MethodSteps(serviceName, itf)[i] in MethodSteps(serviceName, itf);
  }

  /** After a successful `init`, each service key holds a listed object implementing an interface of that key. */
  lemma InitServiceOrigin(serviceList: seq<ServiceImpl>, version: string, s: string)
    requires Init(serviceList, version).Success?
    requires s in Init(serviceList, version).value.services
    ensures var impl := Init(serviceList, version).value.services[s];
            && impl in serviceList
            && exists itf :: itf in impl.interfaces && s == BuildServiceName(itf.name, version)
  {
    var steps := Steps(serviceList, version);
    ApplyBindsServices(EMPTY_REGISTRY, steps);
    var impl := Init(serviceList, version).value.services[s];
    assert PutService(s, impl) in steps;
    StepsOrigin(serviceList, version, PutService(s, impl));
  }

  /**
   * After a successful `init`, a service key is bound to the object whose interface produced
   * it, when that object is the only listed one implementing an interface of that name.
   */
  lemma InitBindsService(serviceList: seq<ServiceImpl>, version: string, impl: ServiceImpl, itf: Interface)
    requires Init(serviceList, version).Success?
    requires impl in serviceList && itf in impl.interfaces
    requires forall other, itf2 :: other in serviceList && itf2 in other.interfaces && itf2.name == itf.name ==> other == impl
    ensures var services := Init(serviceList, version).value.services;
            BuildServiceName(itf.name, version) in services && services[BuildServiceName(itf.name, version)] == impl
  {
    var serviceName := BuildServiceName(itf.name, version);
    var services := Init(serviceList, version).value.services;
    assert serviceName in services by {
      StepsCover(serviceList, version, impl, itf);
      ApplyBindsServices(EMPTY_REGISTRY, Steps(serviceList, version));
    }
    InitServiceOrigin(serviceList, version, serviceName);
    var bound := services[serviceName];
    var itf2 :| itf2 in bound.interfaces && serviceName == BuildServiceName(itf2.name, version);
    assert itf2.name == itf.name by {
      assert serviceName == itf.name + ("_" + version);
      assert serviceName == itf2.name + ("_" + version);
      SuffixCancel(itf.name, itf2.name, "_" + version);
    }
  }

  lemma TwiceCounted(s: seq<string>, i: nat, j: nat)
    requires i < j < |s| && s[i] == s[j]
    ensures multiset(s)[s[i]] >= 2
  {
    assert s == s[..j] + [s[j]] + s[j + 1..];
    assert s[i] == s[..j][i];
    assert multiset(s) == multiset(s[..j]) + multiset{s[j]} + multiset(s[j + 1..]);
  }

  /**
   * Overloads that agree on name and arity collide: an interface declaring two such methods
   * makes `init` fail.
   */
  lemma InitRejectsOverloads(serviceList: seq<ServiceImpl>, version: string, impl: ServiceImpl, itf: Interface,
                             i: nat, j: nat)
    requires impl in serviceList && itf in impl.interfaces
    requires i < j < |itf.methods|
    requires itf.methods[i].name == itf.methods[j].name
    requires itf.methods[i].ParameterCount() == itf.methods[j].ParameterCount()
    ensures Init(serviceList, version).Failure?
  {
    var serviceName := BuildServiceName(itf.name, version);
    var own := MethodSteps(serviceName, itf);
    StepsCover(serviceList, version, impl, itf);
    MethodStepsKeys(serviceName, itf);
    TwiceCounted(MethodKeys(own), i, j);
    InitSucceeds(serviceList, version);
    ConfigBean.CountedTwice(MethodKeys(Steps(serviceList, version)), MethodKeys(own)[i]);
  }

  lemma {:induction false} MethodStepsKeys(serviceName: string, itf: Interface)
    ensures var keys := MethodKeys(MethodSteps(serviceName, itf));
            && |keys| == |itf.methods|
            && forall i :: 0 <= i < |keys| ==> keys[i] == BuildServiceMethodName(serviceName, BuildMethodName(itf.methods[i]))
    decreases |itf.methods|
  {
    if |itf.methods| > 0 {
      var rest := Interface(itf.name, itf.methods[1..]);
      MethodStepsKeys(serviceName, rest);
      assert MethodSteps(serviceName, itf)[1..] == MethodSteps(serviceName, rest);
    }
  }

  lemma StepsAppend(a: seq<ServiceImpl>, b: seq<ServiceImpl>, version: string)
    ensures Steps(a + b, version) == Steps(a, version) + Steps(b, version)
  {
    FlattenAppend(ServiceSteps(version), a, b);
  }

  lemma {:induction false} FlattenAppend<T, U>(f: T -> seq<U>, a: seq<T>, b: seq<T>)
    ensures Flatten(f, a + b) == Flatten(f, a) + Flatten(f, b)
    decreases |a|
  {
    if |a| == 0 {
      assert a + b == b;
    } else {
      assert (a + b)[0] == a[0];
      assert (a + b)[1..] == a[1..] + b;
      FlattenAppend(f, a[1..], b);
    }
  }


  /**
   * Two listed services exposing the same interface, one with at least one method, make `init`
   * fail: the second object's method keys repeat the first's.
   */
  lemma InitRejectsSharedInterface(serviceList: seq<ServiceImpl>, version: string, i: nat, j: nat, itf: Interface)
    requires i < j < |serviceList|
    requires itf in serviceList[i].interfaces && itf in serviceList[j].interfaces
    requires |itf.methods| > 0
    ensures Init(serviceList, version).Failure?
  {
    var k := BuildServiceMethodName(BuildServiceName(itf.name, version), BuildMethodName(itf.methods[0]));
    var before := serviceList[..j];
    var after := serviceList[j..];
    var keysBefore := MethodKeys(Steps(before, version));
    var keysAfter := MethodKeys(Steps(after, version));
    assert k in keysBefore by {
      assert before[i] == serviceList[i];
      InterfaceKeyListed(before, version, serviceList[i], itf);
    }
    assert k in keysAfter by {
      assert after[0] == serviceList[j];
      InterfaceKeyListed(after, version, serviceList[j], itf);
    }
    assert MethodKeys(Steps(serviceList, version)) == keysBefore + keysAfter by {
      assert serviceList == before + after;
      StepsAppend(before, after, version);
      MethodKeysAppend(Steps(before, version), Steps(after, version));
    }
    InBothHalves(keysBefore, keysAfter, k);
    InitSucceeds(serviceList, version);
  }

  /** The key of an exposed interface's first method is among the keys `init` produces. */
  lemma InterfaceKeyListed(serviceList: seq<ServiceImpl>, version: string, impl: ServiceImpl, itf: Interface)
    requires impl in serviceList && itf in impl.interfaces && |itf.methods| > 0
    ensures BuildServiceMethodName(BuildServiceName(itf.name, version), BuildMethodName(itf.methods[0]))
            in MethodKeys(Steps(serviceList, version))
  {
    var serviceName := BuildServiceName(itf.name, version);
    var own := MethodKeys(MethodSteps(serviceName, itf));
    MethodStepsKeys(serviceName, itf);
    StepsCover(serviceList, version, impl, itf);
    assert multiset(own)[own[0]] >= 1;
  }

  lemma InBothHalves(a: seq<string>, b: seq<string>, x: string)
    requires x in a && x in b
    ensures !ConfigBean.NoDuplicates(a + b)
  {
    var i :| 0 <= i < |a| && a[i] == x;
    var j :| 0 <= j < |b| && b[j] == x;
    assert (a + b)[i] == x && (a + b)[|a| + j] == x;
  }

  // ---------------------------------------------------------------------------------------
  // Dispatch
  // ---------------------------------------------------------------------------------------

  /** `returnResponse`: the request id and the result; `hasError` keeps its default false. */
  function ReturnResponse(requestId: string, result: Value): (r: Response)
    ensures r.requestId == requestId && r.result == result
    ensures !r.hasError && r.throwable.None?
  {
    Response(requestId, false, None, result)
  }

  /** `returnError`: the request id, `hasError` set and the exception; no result. */
  function ReturnError(requestId: string, e: Exception): (r: Response)
    ensures r.requestId == requestId && r.throwable == Some(e)
    ensures r.hasError && r.result == Null
  {
    Response(requestId, true, Some(e), Null)
  }

  /**
   * `ProviderServerHandler.invoke`: look the service up by name, then the method by registry
   * key, then call it; each outcome is answered by exactly one response to the request's id,
   * and an exception thrown by the call is answered, never propagated. `call` stands for
   * `Method.invoke` on the service object, so an exception the method itself throws reaches
   * it already wrapped in an InvocationTargetException.
   */
  function Invoke(reg: Registry, req: Request, call: (ServiceImpl, MethodRef, seq<Value>) -> CallOutcome): (r: Response)
    ensures r.requestId == req.requestId
    ensures req.serviceName !in reg.services ==>
              r == ReturnError(req.requestId, Exception(PlainException, Some(req.serviceName + " can't find provider ")))
    ensures req.serviceName in reg.services && BuildServiceMethodName(req.serviceName, req.methodName) !in reg.methods ==>
              r == ReturnError(req.requestId, Exception(PlainException,
                                                        Some(req.serviceName + " can't find method " + req.methodName)))
    ensures r.hasError <==> r.throwable.Some?
    ensures !r.hasError <==>
              && req.serviceName in reg.services
              && BuildServiceMethodName(req.serviceName, req.methodName) in reg.methods
              && call(reg.services[req.serviceName], reg.methods[BuildServiceMethodName(req.serviceName, req.methodName)],
                      req.params).Returned?
    ensures req.serviceName in reg.services && BuildServiceMethodName(req.serviceName, req.methodName) in reg.methods ==>
              var outcome := call(reg.services[req.serviceName],
                                  reg.methods[BuildServiceMethodName(req.serviceName, req.methodName)], req.params);
              && (outcome.Returned? ==> r == ReturnResponse(req.requestId, outcome.value))
              && (outcome.Thrown? ==> r == ReturnError(req.requestId, outcome.error))
  {
    if req.serviceName !in reg.services then
      ReturnError(req.requestId, Exception(PlainException, Some(req.serviceName + " can't find provider ")))
    else
      var service := reg.services[req.serviceName];
      var key := BuildServiceMethodName(req.serviceName, req.methodName);
      if key !in reg.methods then
        ReturnError(req.requestId, Exception(PlainException, Some(req.serviceName + " can't find method " + req.methodName)))
      else
        match call(service, reg.methods[key], req.params)
        case Returned(v) => ReturnResponse(req.requestId, v)
        case Thrown(e) => ReturnError(req.requestId, e)
  }

  /**
   * End to end: a consumer of interface `itf` calling `m` through a registry built by a
   * successful `init` reaches exactly that method of the exposing object, and `Method.invoke`'s
   * return value or exception comes back under the request's id; an exception the method itself
   * throws arrives wrapped in an InvocationTargetException.
   */
  lemma ConsumerRequestReachesMethod(serviceList: seq<ServiceImpl>, version: string, impl: ServiceImpl,
                                     itf: Interface, m: MethodDesc, args: seq<Value>, uuidText: string,
                                     call: (ServiceImpl, MethodRef, seq<Value>) -> CallOutcome)
    requires Init(serviceList, version).Success?
    requires impl in serviceList && itf in impl.interfaces && m in itf.methods
    requires forall other, itf2 :: other in serviceList && itf2 in other.interfaces && itf2.name == itf.name ==> other == impl
    requires |uuidText| >= ConsumerInterceptor.REQUEST_ID_LENGTH
    ensures var req := ConsumerInterceptor.BuildRequest(BuildServiceName(itf.name, version), m, args, uuidText);
            var r := Invoke(Init(serviceList, version).value, req, call);
            && r.requestId == req.requestId
            && (call(impl, MethodRef(itf.name, m), args).Returned? ==>
                  r == ReturnResponse(req.requestId, call(impl, MethodRef(itf.name, m), args).value))
            && (call(impl, MethodRef(itf.name, m), args).Thrown? ==>
                  r == ReturnError(req.requestId, call(impl, MethodRef(itf.name, m), args).error))
  {
    InitBindsMethod(serviceList, version, impl, itf, m);
    InitBindsService(serviceList, version, impl, itf);
  }

  /**
   * The consumer reads only `result`: whatever a provider method throws reaches the waiting
   * client as a normal return of null, while a returned value reaches it unchanged.
   */
  lemma ProviderOutcomeAtConsumer(reg: Registry, req: Request, call: (ServiceImpl, MethodRef, seq<Value>) -> CallOutcome,
                                  address: string, h: NettyClient.Handler)
    requires h.channel == NettyClient.Channel(true)
    ensures var resp := Invoke(reg, req, call);
            var got := NettyClient.HandlerSend(address, h, req, [resp], None).1;
            && (resp.hasError ==> got == Returned(Null))
            && (!resp.hasError ==> got == Returned(resp.result))
  {
    var resp := Invoke(reg, req, call);
    assert NettyClient.Answers([resp], req.requestId) by {
      assert [resp][0].requestId == req.requestId;
    }
    assert NettyClient.FirstAnswer([resp], req.requestId) == resp.result;
  }

  // ---------------------------------------------------------------------------------------
  // Registration with the naming service
  // ---------------------------------------------------------------------------------------

  /**
   * `init`'s address: a null or empty configured address means the local host's address.
   * `localHost` is the outcome of `InetAddress.getLocalHost().getHostAddress()`, which can throw
   * (an UnknownHostException when the host name does not resolve); it is consulted only when needed.
   */
  function EffectiveAddress(configured: Option<string>, localHost: Result<string, Exception>)
    : (r: Result<string, Exception>)
    ensures configured.Some? && configured.value != "" ==> r == Success(configured.value)
    ensures configured.None? || configured.value == "" ==> r == localHost
  {
    match configured
    case Some(a) => if a == "" then localHost else Success(a)
    case None => localHost
  }

  /** `registerProvider` over the service keys in the order `keySet` yields them; the first failure aborts. */
  function RegisterAll(store: ConfigBean.ZkStore, serviceNames: seq<string>, addressName: string)
    : (r: Result<ConfigBean.ZkStore, Exception>)
    ensures r.Success? ==> r.value.Keys == store.Keys + Paths(serviceNames)
    ensures r.Failure? ==> r.error == Exception(NullPointerException, None)
    decreases |serviceNames|
  {
    if |serviceNames| == 0 then Success(store)
    else match ConfigBean.RegisterProvider(store, serviceNames[0], addressName)
      case Failure(e) => Failure(e)
      case Success(next) => RegisterAll(next, serviceNames[1..], addressName)
  }

  /** `cancelProvider` over the service keys; the first failure aborts. */
  function CancelAll(store: ConfigBean.ZkStore, serviceNames: seq<string>, addressName: string)
    : (r: Result<ConfigBean.ZkStore, Exception>)
    ensures r.Success? ==> r.value.Keys == store.Keys && Paths(serviceNames) <= store.Keys
    ensures r.Failure? ==> r.error.kind in {ZkNoNodeException, NullPointerException} && r.error.message.None?
    decreases |serviceNames|
  {
    if |serviceNames| == 0 then Success(store)
    else match ConfigBean.CancelProvider(store, serviceNames[0], addressName)
      case Failure(e) => Failure(e)
      case Success(next) => CancelAll(next, serviceNames[1..], addressName)
  }

  function Paths(serviceNames: seq<string>): set<string> {
    set s | s in serviceNames :: ConfigBean.ServicePath(s)
  }

  /** The list a single registration leaves at `path`. */
  function Listed(store: ConfigBean.ZkStore, path: string, addressName: string): seq<string>
    requires path in store ==> store[path].Some?
  {
    if path !in store then [addressName]
    else if addressName in store[path].value then store[path].value
    else store[path].value + [addressName]
  }

  lemma PathsCons(serviceNames: seq<string>)
    requires |serviceNames| > 0
    ensures Paths(serviceNames) == {ConfigBean.ServicePath(serviceNames[0])} + Paths(serviceNames[1..])
  {
    assert forall s :: s in serviceNames <==> s == serviceNames[0] || s in serviceNames[1..];
  }

  /** Distinct keys have distinct nodes, so the first key's node is not among the others'. */
  lemma DistinctTail(serviceNames: seq<string>)
    requires |serviceNames| > 0 && ConfigBean.NoDuplicates(serviceNames)
    ensures ConfigBean.NoDuplicates(serviceNames[1..])
    ensures ConfigBean.ServicePath(serviceNames[0]) !in Paths(serviceNames[1..])
  {
    var rest := serviceNames[1..];
    ConfigBean.NoDuplicatesCons(serviceNames[0], rest);
    assert serviceNames == [serviceNames[0]] + rest;
    forall s | s in rest ensures ConfigBean.ServicePath(s) != ConfigBean.ServicePath(serviceNames[0]) {
      if ConfigBean.ServicePath(s) == ConfigBean.ServicePath(serviceNames[0]) {
        ConfigBean.ServicePathInjective(s, serviceNames[0]);
      }
    }
  }

  /** Registering under every key fails exactly when some key's node holds null data. */
  lemma {:induction false} RegisterAllSucceeds(store: ConfigBean.ZkStore, serviceNames: seq<string>, addressName: string)
    ensures RegisterAll(store, serviceNames, addressName).Success? <==>
            forall p :: p in Paths(serviceNames) && p in store ==> store[p].Some?
    decreases |serviceNames|
  {
    if |serviceNames| > 0 {
      var path := ConfigBean.ServicePath(serviceNames[0]);
      var rest := serviceNames[1..];
      PathsCons(serviceNames);
      match ConfigBean.RegisterProvider(store, serviceNames[0], addressName)
      case Failure(e) =>
        assert path in Paths(serviceNames);
      case Success(next) =>
        RegisterAllSucceeds(next, rest, addressName);
        assert forall p :: p in next <==> p in store || p == path;
        assert forall p :: p in store && p != path ==> next[p] == store[p];
    }
  }

  /**
   * A successful registration under every key leaves each key's node listing the address
   * (appended if it was missing) and every other node as it was.
   */
  lemma {:induction false} RegisterAllResult(store: ConfigBean.ZkStore, serviceNames: seq<string>, addressName: string)
    requires RegisterAll(store, serviceNames, addressName).Success?
    ensures forall p :: p in Paths(serviceNames) && p in store ==> store[p].Some?
    ensures var r := RegisterAll(store, serviceNames, addressName).value;
            && r.Keys == store.Keys + Paths(serviceNames)
            && (forall p :: p in store && p !in Paths(serviceNames) ==> r[p] == store[p])
            && (forall p :: p in Paths(serviceNames) ==> r[p] == Some(Listed(store, p, addressName)))
    decreases |serviceNames|
  {
    RegisterAllSucceeds(store, serviceNames, addressName);
    if |serviceNames| > 0 {
      var path := ConfigBean.ServicePath(serviceNames[0]);
      var rest := serviceNames[1..];
      PathsCons(serviceNames);
      var next := ConfigBean.RegisterProvider(store, serviceNames[0], addressName).value;
      RegisterAllResult(next, rest, addressName);
      assert next[path] == Some(Listed(store, path, addressName));
      assert addressName in Listed(store, path, addressName);
      var r := RegisterAll(next, rest, addressName).value;
      forall p | p in Paths(serviceNames)
        ensures r[p] == Some(Listed(store, p, addressName))
      {
        if p != path {
          assert p in Paths(rest);
        }
      }
    }
  }

  /** Cancelling under distinct keys fails exactly when some key's node is missing or null. */
  lemma {:induction false} CancelAllSucceeds(store: ConfigBean.ZkStore, serviceNames: seq<string>, addressName: string)
    requires ConfigBean.NoDuplicates(serviceNames)
    ensures CancelAll(store, serviceNames, addressName).Success? <==>
            forall p :: p in Paths(serviceNames) ==> p in store && store[p].Some?
    decreases |serviceNames|
  {
    if |serviceNames| > 0 {
      var path := ConfigBean.ServicePath(serviceNames[0]);
      var rest := serviceNames[1..];
      PathsCons(serviceNames);
      DistinctTail(serviceNames);
      match ConfigBean.CancelProvider(store, serviceNames[0], addressName)
      case Failure(e) =>
        assert path in Paths(serviceNames);
      case Success(next) =>
        CancelAllSucceeds(next, rest, addressName);
        assert forall p :: p in store && p != path ==> next[p] == store[p];
    }
  }

  /**
   * A successful cancellation under distinct keys removes the first occurrence of the address
   * from each key's node and leaves every other node as it was.
   */
  lemma {:induction false} CancelAllResult(store: ConfigBean.ZkStore, serviceNames: seq<string>, addressName: string)
    requires ConfigBean.NoDuplicates(serviceNames)
    requires CancelAll(store, serviceNames, addressName).Success?
    ensures forall p :: p in Paths(serviceNames) ==> p in store && store[p].Some?
    ensures var r := CancelAll(store, serviceNames, addressName).value;
            && r.Keys == store.Keys
            && (forall p :: p in store && p !in Paths(serviceNames) ==> r[p] == store[p])
            && (forall p :: p in Paths(serviceNames) ==>
                  r[p] == Some(ConfigBean.RemoveFirst(store[p].value, addressName)))
    decreases |serviceNames|
  {
    CancelAllSucceeds(store, serviceNames, addressName);
    if |serviceNames| > 0 {
      var rest := serviceNames[1..];
      PathsCons(serviceNames);
      DistinctTail(serviceNames);
      var next := ConfigBean.CancelProvider(store, serviceNames[0], addressName).value;
      CancelAllResult(next, rest, addressName);
    }
  }

  /** The store after a clean start-up and shutdown: existing nodes as they were, created ones empty. */
  function Restored(store: ConfigBean.ZkStore, serviceNames: seq<string>): (r: ConfigBean.ZkStore)
    ensures r.Keys == store.Keys + Paths(serviceNames)
  {
    map p | p in store.Keys + Paths(serviceNames) :: if p in store then store[p] else Some([])
  }

  /**
   * Shutdown undoes start-up: cancelling under the same keys with the same `address:port`
   * name restores every node that existed, and leaves an empty list at each node start-up
   * created, provided the address was not listed before.
   */
  lemma RegisterThenCancel(store: ConfigBean.ZkStore, serviceNames: seq<string>, addressName: string)
    requires ConfigBean.NoDuplicates(serviceNames)
    requires forall p :: p in Paths(serviceNames) && p in store ==> store[p].Some? && addressName !in store[p].value
    ensures RegisterAll(store, serviceNames, addressName).Success?
    ensures CancelAll(RegisterAll(store, serviceNames, addressName).value, serviceNames, addressName)
            == Success(Restored(store, serviceNames))
  {
    RegisterAllSucceeds(store, serviceNames, addressName);
    RegisterAllResult(store, serviceNames, addressName);
    var registered := RegisterAll(store, serviceNames, addressName).value;
    CancelAllSucceeds(registered, serviceNames, addressName);
    CancelAllResult(registered, serviceNames, addressName);
    var r := CancelAll(registered, serviceNames, addressName).value;
    var expected := Restored(store, serviceNames);
    assert r.Keys == expected.Keys;
    forall p | p in r
      ensures r[p] == expected[p]
    {
      if p in Paths(serviceNames) {
        RestoredAt(store, serviceNames, addressName, p);
        assert registered[p] == Some(Listed(store, p, addressName));
        assert r[p] == Some(ConfigBean.RemoveFirst(Listed(store, p, addressName), addressName));
      }
    }
    assert r == expected;
  }

  lemma RestoredAt(store: ConfigBean.ZkStore, serviceNames: seq<string>, addressName: string, p: string)
    requires p in Paths(serviceNames)
    requires p in store ==> store[p].Some? && addressName !in store[p].value
    ensures ConfigBean.RemoveFirst(Listed(store, p, addressName), addressName) == Restored(store, serviceNames)[p].value
  {
    if p in store {
      var before := store[p].value;
      ConfigBean.RemoveFirstKeepsOrder(before + [addressName], addressName, |before|);
      assert (before + [addressName])[..|before|] == before;
    } else {
      ConfigBean.RemoveFirstKeepsOrder([addressName], addressName, 0);
    }
  }

  /** A started provider: its effective address, its port and its registry. */
  datatype Provider = Provider(address: string, port: int, registry: Registry)

  /**
   * `init` with the address defaulted first: a failed local-host lookup aborts it before any
   * service is bound, and otherwise a repeated registry key does.
   */
  function Start(configured: Option<string>, localHost: Result<string, Exception>, port: int, version: string,
                 serviceList: seq<ServiceImpl>): (r: Result<Provider, Exception>)
    ensures r.Success? <==> EffectiveAddress(configured, localHost).Success? && Init(serviceList, version).Success?
    ensures configured.Some? && configured.value != "" ==> (r.Success? <==> Init(serviceList, version).Success?)
    ensures (configured.None? || configured.value == "") && localHost.Failure? ==> r == Failure(localHost.error)
    ensures r.Failure? && EffectiveAddress(configured, localHost).Success? ==> r == Failure(Init(serviceList, version).error)
    ensures r.Success? ==> Success(r.value.address) == EffectiveAddress(configured, localHost) && r.value.port == port
                           && r.value.registry == Init(serviceList, version).value
  {
    match EffectiveAddress(configured, localHost)
    case Failure(e) => Failure(e)
    case Success(address) =>
      match Init(serviceList, version)
      case Failure(e) => Failure(e)
      case Success(reg) => Success(Provider(address, port, reg))
  }

  /** `registerProvider` of the bean: every service key with the one `address:port` name. */
  function RegisterProvider(store: ConfigBean.ZkStore, p: Provider, keyOrder: seq<string>)
    : (r: Result<ConfigBean.ZkStore, Exception>)
    requires IsJavaInt(p.port)
    requires forall k :: k in keyOrder <==> k in p.registry.services
    ensures r.Success? ==> r.value.Keys == store.Keys + set s | s in p.registry.services :: ConfigBean.ServicePath(s)
    ensures r.Failure? ==> r.error == Exception(NullPointerException, None)
  {
    assert Paths(keyOrder) == set s | s in p.registry.services :: ConfigBean.ServicePath(s);
    RegisterAll(store, keyOrder, BuildAddressName(p.address, p.port))
  }

  /** `cancelProvider` of the bean: the same keys with the same `address:port` name. */
  function CancelProvider(store: ConfigBean.ZkStore, p: Provider, keyOrder: seq<string>)
    : (r: Result<ConfigBean.ZkStore, Exception>)
    requires IsJavaInt(p.port)
    requires forall k :: k in keyOrder <==> k in p.registry.services
    ensures r.Success? ==> r.value.Keys == store.Keys
                           && (forall s :: s in p.registry.services ==> ConfigBean.ServicePath(s) in store)
    ensures r.Failure? ==> r.error.kind in {ZkNoNodeException, NullPointerException}
  {
    assert Paths(keyOrder) == set s | s in p.registry.services :: ConfigBean.ServicePath(s);
    CancelAll(store, keyOrder, BuildAddressName(p.address, p.port))
  }

  /**
   * After start-up registration every service key's node lists the provider under the name
   * `address:port`. For a colon-free address, a consumer parsing that name connects back to the
   * provider's host and port when the port is a TCP port, and fails with the connect call's
   * IllegalArgumentException otherwise.
   */
  lemma ProviderRegistered(store: ConfigBean.ZkStore, p: Provider, keyOrder: seq<string>, s: string)
    requires IsJavaInt(p.port)
    requires forall k :: k in keyOrder <==> k in p.registry.services
    requires RegisterProvider(store, p, keyOrder).Success?
    requires s in p.registry.services
    requires ':' !in p.address
    ensures var name := BuildAddressName(p.address, p.port);
            var r := RegisterProvider(store, p, keyOrder).value;
            && ConfigBean.ServicePath(s) in r && r[ConfigBean.ServicePath(s)].Some?
            && name in r[ConfigBean.ServicePath(s)].value
            && (NettyClient.IsPort(p.port) ==> NettyClient.ConnectTarget(name) == Success((p.address, p.port)))
            && (!NettyClient.IsPort(p.port) ==>
                  NettyClient.ConnectTarget(name)
                  == Failure(Exception(IllegalArgumentException, Some("port out of range:" + Decimal(p.port)))))
  {
    ProviderListed(store, p, keyOrder, s);
    NettyClient.ConnectTargetOfAddressName(p.address, p.port);
  }

  /** After start-up registration a service key's node lists the provider's `address:port`. */
  lemma ProviderListed(store: ConfigBean.ZkStore, p: Provider, keyOrder: seq<string>, s: string)
    requires IsJavaInt(p.port)
    requires forall k :: k in keyOrder <==> k in p.registry.services
    requires RegisterProvider(store, p, keyOrder).Success?
    requires s in p.registry.services
    ensures var r := RegisterProvider(store, p, keyOrder).value;
            && ConfigBean.ServicePath(s) in r && r[ConfigBean.ServicePath(s)].Some?
            && BuildAddressName(p.address, p.port) in r[ConfigBean.ServicePath(s)].value
  {
    var name := BuildAddressName(p.address, p.port);
    RegisterAllResult(store, keyOrder, name);
    assert ConfigBean.ServicePath(s) in Paths(keyOrder);
  }

  /** Shutdown cancels exactly what start-up registered. */
  lemma ProviderRegisterThenCancel(store: ConfigBean.ZkStore, p: Provider, keyOrder: seq<string>)
    requires IsJavaInt(p.port)
    requires forall k :: k in keyOrder <==> k in p.registry.services
    requires ConfigBean.NoDuplicates(keyOrder)
    requires forall q :: q in Paths(keyOrder) && q in store ==>
               store[q].Some? && BuildAddressName(p.address, p.port) !in store[q].value
    ensures RegisterProvider(store, p, keyOrder).Success?
    ensures CancelProvider(RegisterProvider(store, p, keyOrder).value, p, keyOrder) == Success(Restored(store, keyOrder))
  {
    RegisterThenCancel(store, keyOrder, BuildAddressName(p.address, p.port));
  }
}

=== FILE: wrappers.dfy ===
/** Failure-compatible wrappers standing in for Java's null and thrown exceptions. */
module Wrappers {

  /** `None` models a Java `null` reference or a missing map entry. */
  datatype Option<+T> = None | Some(value: T) {

    function GetOr(default: T): T {
      match this
      case Some(v) => v
      case None => default
    }
  }

  /** `Failure` models an exception thrown out of an operation. */
  datatype Result<+R, +E> = Success(value: R) | Failure(error: E)
}
